=== FILE: README.md ===
# Idle-resource audit job — Dafny model

This project models the selection logic of the cloud cost-hygiene audit job in
`lambda_function.py`. The job has seven detectors, and each one filters provider
records:

- snapshots whose volume is gone or unattached;
- `available` volumes with no recent CloudTrail event;
- load balancers with a target group that has no registered targets;
- NAT gateways in a terminal state;
- elastic IPs without an association;
- instances stopped by a user before the threshold;
- buckets that are empty or hold an object modified before the threshold.

`lambda_handler` runs the detectors in a fixed order. It binds their outputs to the seven
report keys and answers with status 200.

Provider answers are plain values:

- A listing call (`describe_snapshots`, `describe_volumes`, `describe_load_balancers`,
  `describe_nat_gateways`, `describe_addresses`, `describe_instances`, `list_buckets`) is an
  input sequence.
- A call made for one resource is a function parameter keyed by that resource's identifier:
  `describe_volumes(VolumeIds=[id])`, `lookup_events`, `describe_target_groups`,
  `describe_target_health` and `list_objects_v2`. It returns whatever the first page holds.
- The 30-day threshold is a `DateTime` parameter, not a clock read.

Timestamps are Python `datetime` fields: years 1–9999, microsecond resolution, all UTC.
They are compared as Python compares them, field tuple by field tuple. A lemma shows that
this tuple order is the chronological order, computed from a day count and elapsed
microseconds.

Modules:

- `Outcomes`: `Option` and `Result`.
- `Sequences`: the loop shapes, stated once. `Collect` is the filter-and-append loop.
  `TryCollect` and `Traverse` are loops that may raise. `FlatMap` is a nested loop.
- `DateTimes`, `Text` and `TimeText`: date-times, string operations, and the strftime,
  isoformat and strptime text forms.
- `Snapshots`, `Volumes`, `LoadBalancers`, `Buckets`, `Instances`, `ElasticIps`,
  `NatGateways`: one module per detector.
- `Report`: `lambda_handler` and the report dictionary.

Behaviour of the code worth knowing, all of it kept by the model:

- **Snapshots.** When the volume lookup raises a provider `ClientError` whose code is not
  `InvalidVolume.NotFound`, the code catches it and silently skips the snapshot. Only two
  cases abort the detector:
  - an exception other than `ClientError`;
  - an empty `Volumes` list, which makes `[0]` raise `IndexError`.
- **Volumes.** Any CloudTrail event naming the volume counts, not only attach or detach
  events.
- **Volume formatting.** The final formatting pass calls `strftime` on every flagged entry. An
  `available` volume without events is flagged with time `None`, so the whole detector fails
  (`LastUsedTimeIsNone`).
- **Load balancers.** A load balancer is listed once per target group that has no targets,
  with no deduplication. This holds even when its other target groups have targets.
- **Buckets.** The reduction keeps the earliest `LastModified`, not the latest. A bucket is
  therefore flagged as soon as any one object on the page is older than the threshold
  (`Buckets.EarliestBeforeIffSomeBefore`, `Buckets.EarliestFlagsMore`). If `Contents` is
  present but empty, no entry is produced.
- **Age tests.** Every age test is a strict `<` against the threshold.

## Model

| member | source | states |
|---|---|---|
| `DateTimes.BeforeIsChronological` | lambda_function.py:301 | comparing two aware datetimes field by field agrees with comparing their elapsed time since the calendar origin |
| `DateTimes.BeforeIsStrictTotalOrder` | lambda_function.py:191 | the datetime comparison is irreflexive, transitive and total, so "older than the threshold" is well defined |
| `Text.Contains` | lambda_function.py:293 | `sub in s` holds exactly when `sub` occurs at some index of `s` |
| `Text.AfterLast` | lambda_function.py:294 | `split('(')[-1]` is the longest suffix free of `(`: all of the text when it has none, otherwise what follows the last `(` |
| `Text.StripLeft` | lambda_function.py:294 | the leading-strip half of `strip(')')` removes exactly the leading `)` characters |
| `Text.StripRight` | lambda_function.py:294 | the trailing-strip half of `strip(')')` removes exactly the trailing `)` characters |
| `Text.AfterLastOf` | lambda_function.py:294 | for `p + "(" + q` where `q` has no `(`, the split yields exactly `q` |
| `Text.StripTrailing` | lambda_function.py:294 | stripping `)` from `x + ")"` gives back `x` when `x` neither starts nor ends with `)` |
| `Text.DigitsRoundTrip` | lambda_function.py:297 | a number written as a zero-padded fixed-width field reads back as the same number |
| `Text.DigitsOfValue` | lambda_function.py:297 | a field of decimal digits is exactly the zero-padded text of its value |
| `TimeText.ParseOfGmtText` | lambda_function.py:297-298 | parsing the `%Y-%m-%d %H:%M:%S GMT` text of a whole-second UTC time returns that time |
| `TimeText.ParsedIsGmtText` | lambda_function.py:297-298 | any text the parser accepts is the canonical GMT text of the parsed time, with microseconds zero |
| `TimeText.ParseGmtExact` | lambda_function.py:297-298 | the parser returns `d` if and only if the text is the GMT text of `d` and `d` has no microseconds, so parse and format are inverse |
| `TimeText.IsoTextOfWholeSecond` | lambda_function.py:298-302 | the `isoformat()` text of a parsed stop time is its GMT text with a `T` separator and a `+00:00` offset |
| `Snapshots.ExamineMeaning` | lambda_function.py:133-148 | one snapshot's examination raises exactly in the aborting cases and lists the id exactly when the snapshot is orphaned; an empty `Volumes` list raises the `IndexError` fault, and any exception other than a `ClientError` propagates with its name; both name the snapshot's volume |
| `Snapshots.SnapshotsToDelete` | lambda_function.py:132-150 | success exactly when no snapshot aborts; then an id is listed iff some snapshot with it has no volume id, or its lookup failed with `InvalidVolume.NotFound`, or its first returned volume has no attachments; otherwise the failure is exactly the fault raised by the first aborting snapshot |
| `Snapshots.SnapshotsToDeleteConcat` | lambda_function.py:132-150 | ids come out in snapshot order, and the earlier failure wins |
| `Snapshots.SnapshotsToDeleteCount` | lambda_function.py:131-148 | on success the list holds exactly one id per orphaned snapshot: its length is the number of orphaned snapshots |
| `Volumes.LatestEventTime` | lambda_function.py:177-179 | the `max` over the events' times is one of those times, and no event is later |
| `Volumes.OldUnusedCandidates` | lambda_function.py:164-192 | the flagged list holds exactly the `available` volumes with no events (time `None`) or with a latest event strictly before the threshold; other states never appear |
| `Volumes.FormatLastUsed` | lambda_function.py:195-196 | the formatting pass succeeds iff every flagged entry has a time, and then keeps ids and order with each time in `%Y-%m-%d %H:%M:%S`; otherwise it fails at the first entry without a time |
| `Volumes.CandidatesWithoutTime` | lambda_function.py:177-192 | the flagged list has an entry without a time exactly when some `available` volume has no events |
| `Volumes.FlaggedEntries` | lambda_function.py:177-196 | when the formatting pass succeeds, its entries are exactly the `available` volumes whose latest event is before the threshold, each with that time formatted |
| `Volumes.FormatFailure` | lambda_function.py:181-196 | when the formatting pass raises, the entry it stops at belongs to an `available` volume without events |
| `Volumes.OldUnusedVolumes` | lambda_function.py:164-198 | success iff every `available` volume has at least one event; then an entry is listed iff it is an `available` volume whose latest event is before the threshold, with that time formatted; otherwise the failure names an eventless `available` volume |
| `Volumes.OldUnusedVolumesConcat` | lambda_function.py:164-198 | entries come out in volume order, and the earlier failure wins |
| `LoadBalancers.LoadBalancersWithoutTargets` | lambda_function.py:212-237 | an entry is listed iff it is the name and ARN of a load balancer that has a target group with no registered targets |
| `LoadBalancers.BalancerContribution` | lambda_function.py:222-235 | a load balancer with K target groups lacking targets contributes exactly K copies of its entry, and none if it has no target groups |
| `LoadBalancers.WithoutTargetsIsRepetition` | lambda_function.py:212-235 | the whole output is each load balancer in turn, repeated once per empty target group, with no deduplication |
| `LoadBalancers.WithoutTargetsConcat` | lambda_function.py:212-237 | entries come out in load-balancer order |
| `Buckets.EarliestModified` | lambda_function.py:262-268 | the reduction yields None exactly for an empty page; otherwise it yields a time of the page that no object's time precedes, i.e. the minimum |
| `Buckets.EarliestBeforeIffSomeBefore` | lambda_function.py:262-271 | the minimum is before the threshold iff some object of the page was modified before it |
| `Buckets.EarliestFlagsMore` | lambda_function.py:262-272 | a page with one old object and one recent object is flagged "not accessed", although not all its objects are old |
| `Buckets.UnusedBuckets` | lambda_function.py:249-275 | an entry is listed iff its bucket has no `Contents` (status `No objects in the bucket`) or has an object older than the threshold (status `Bucket not accessed since last 30 days`); never more entries than buckets |
| `Buckets.AtMostOncePerBucket` | lambda_function.py:249-272 | with distinct bucket names, no bucket name is listed twice |
| `Buckets.UnusedBucketsConcat` | lambda_function.py:249-275 | entries come out in bucket order: the result for `a + b` is the result for `a` followed by the result for `b` |
| `Instances.VerdictMeaning` | lambda_function.py:290-303 | an instance is reported with an entry iff its reason contains `User initiated`, the text after the last `(` with `)` stripped parses, and the parsed time is before the threshold; the entry carries the ISO text of that time |
| `Instances.StoppedInstances` | lambda_function.py:287-308 | an entry is listed iff some instance of some reservation is flagged as above; a reason that fails to parse is skipped, not raised |
| `Instances.StoppedInstancesConcat` | lambda_function.py:287-308 | entries come out in reservation order |
| `Instances.InstancesOfConcat` | lambda_function.py:288-303 | within one reservation, entries come out in instance order |
| `Instances.StoppedInstancesIsFlatFilter` | lambda_function.py:286-306 | the nested loop equals one filter loop over all instances in reservation-then-instance order |
| `Instances.StoppedInstancesCount` | lambda_function.py:286-306 | each reported instance is listed exactly once: the list is as long as the number of instances the verdict reports |
| `Instances.StopTimeTextOf` | lambda_function.py:294 | the candidate text of a reason ending in `(x)` is `x` when `x` contains no parenthesis |
| `Instances.ReasonRoundTrip` | lambda_function.py:290-298 | a reason written as `<text with the marker>(<time> GMT)` yields back the time it was written from |
| `Instances.UserInitiatedExample` | lambda_function.py:290-303 | the reason `User initiated (2023-01-01 00:00:00 GMT)`, with a later threshold, is reported with `2023-01-01T00:00:00+00:00` |
| `ElasticIps.UnattachedElasticIps` | lambda_function.py:316-324 | an entry is listed iff it copies the public IP and allocation id of an address without an `AssociationId` |
| `ElasticIps.UnattachedCount` | lambda_function.py:316-321 | the number of entries equals the number of unassociated addresses |
| `ElasticIps.UnattachedConcat` | lambda_function.py:316-324 | entries come out in address order |
| `NatGateways.UnattachedNatGateways` | lambda_function.py:332-343 | an entry is listed iff it copies the id, state, VPC and subnet of a gateway whose state is `deleted`, `deleting` or `failed` |
| `NatGateways.UnattachedCount` | lambda_function.py:332-340 | the number of entries equals the number of gateways in those states |
| `NatGateways.UnattachedConcat` | lambda_function.py:332-343 | entries come out in gateway order |
| `Report.Sections` | lambda_function.py:83-91 | the report dictionary has exactly the seven fixed keys |
| `Report.SectionsHaveSevenKeys` | lambda_function.py:83-91 | no two keys coincide, so the dictionary holds seven entries and no detector's list overwrites another |
| `Report.LambdaHandler` | lambda_function.py:23-98 | the run succeeds iff the snapshot and volume detectors succeed; a success has status 200 and binds each key to its detector's output; a snapshot failure takes precedence over a volume failure, since snapshots run first |
| `Report.EmptyAccountReport` | lambda_function.py:83-98 | an account with nothing in it still gets status 200 and all seven keys, each bound to an empty list |

## Left out

- Provider calls, SNS publishing and client construction (lambda_function.py:6-16, 105-114) are left out. Their answers are inputs and function parameters. Failures of the listing calls (network, throttling, permissions) are not modelled. Neither are failures of the per-resource calls `lookup_events` (line 170), `describe_target_groups` (line 217), `describe_target_health` (line 226) and `list_objects_v2` (line 253): they are total functions here. In the code, a `ClientError` from any of them (for example `AccessDenied` on one bucket) aborts the whole handler. So `Report.LambdaHandler`'s "succeeds iff the snapshot and volume detectors succeed" holds only under this abstraction. The one call whose errors are modelled is `describe_volumes(VolumeIds=[id])` in the snapshot detector (lines 141-147).
- The clock read at import (lambda_function.py:14) is left out. The threshold is a parameter, so the model does not state that it is "now minus 30 days".
- `json.dumps` serialisation of the report and of the response body is left out, as are all `print` logging and the key order of the serialised dictionary. The response carries the report value itself.
- The `tzinfo is None` branch (lambda_function.py:182-183) is left out. It names `tz`, which is never imported. Provider timestamps are always time-zone aware, and all are treated as UTC.
- The running-instance ids collected at lambda_function.py:124-129 are left out, because they never affect the output. So is the unused `unused_volumes` list at line 188.
- The server-side filters `OwnerIds=['self']` and `instance-state-name = stopped` are left out. They are modelled by the input sequences holding only matching records.
- `TimeText.ParseGmtExact`: it models a fixed-width parser of ASCII digits. `strptime` also accepts one-digit month, day, hour, minute and second fields, a space-padded day (` 1`), non-ASCII decimal digits (what `\d` matches in a Python `str` pattern), any run of whitespace for each space, and `gmt` in any letter case. Those inputs are rejected here.
- Year formatting: `TimeText.StrftimeText` always pads the year to four digits. The platform `strftime` may not pad years below 1000, which provider timestamps never reach.
- Python `KeyError`s on records that lack a required key (for example an address without `AllocationId`) are left out. The record datatypes make those fields mandatory.

=== FILE: buckets.dfy ===
/** `get_unused_s3_buckets`: buckets whose first object page is missing, or whose earliest
    `LastModified` on that page is older than the threshold. The bucket listing is the input
    sequence; `list_objects_v2(Bucket=name)` (first page only) is the `listObjects`
    parameter. */
module Buckets {
  import opened Outcomes
  import opened Sequences
  import opened DateTimes

  datatype Bucket = Bucket(name: string)

  datatype S3Object = S3Object(key: string, lastModified: DateTime)

  /** A `list_objects_v2` response; `contents` is None when the response has no `Contents`
      key, which is how an empty bucket is reported. */
  datatype ObjectListing = ObjectListing(contents: Option<seq<S3Object>>)

  datatype BucketEntry = BucketEntry(bucketName: string, status: string)

  const NoObjectsStatus: string := "No objects in the bucket"
  const NotAccessedStatus: string := "Bucket not accessed since last 30 days"

  /** The reduction over the page: it keeps a `LastModified` whenever it is smaller than the one
      kept so far, so it ends with the EARLIEST modification time, or None for an empty page. */
  function EarliestModified(objects: seq<S3Object>): (t: Option<DateTime>)
    ensures t.None? <==> |objects| == 0
    ensures t.Some? ==> exists i :: 0 <= i < |objects| && objects[i].lastModified == t.value
    ensures t.Some? ==> forall i :: 0 <= i < |objects| ==> !Before(objects[i].lastModified, t.value)
    decreases |objects|
  {
    if |objects| == 0 then None
    else
      var n := |objects| - 1;
      var init := objects[..n];
      assert forall i :: 0 <= i < n ==> init[i] == objects[i];
      var sofar := EarliestModified(init);
      var current := objects[n].lastModified;
      BeforeIsStrictTotalOrder(current, current, current);
      if sofar.None? || Before(current, sofar.value) then
        forall i | 0 <= i < n {
          BeforeIsStrictTotalOrder(objects[i].lastModified, current, sofar.value);
        }
        Some(current)
      else
        BeforeIsStrictTotalOrder(current, sofar.value, current);
        sofar
  }

  /** One iteration of the loop over buckets. */
  function Verdict(b: Bucket, listing: ObjectListing, threshold: DateTime): Option<BucketEntry>
  {
    match listing.contents
    case None => Some(BucketEntry(b.name, NoObjectsStatus))
    case Some(objects) =>
      var earliest := EarliestModified(objects);
      if earliest.Some? && Before(earliest.value, threshold) then Some(BucketEntry(b.name, NotAccessedStatus))
      else None
  }

  /** What the reduction actually tests: the earliest modification is before the threshold
      exactly when SOME object of the page was modified before it, however recently the other
      objects were modified. */
  lemma EarliestBeforeIffSomeBefore(objects: seq<S3Object>, threshold: DateTime)
    requires |objects| > 0
    ensures Before(EarliestModified(objects).value, threshold) <==>
            exists i :: 0 <= i < |objects| && Before(objects[i].lastModified, threshold)
  {
    var t := EarliestModified(objects).value;
    forall i | 0 <= i < |objects| && Before(objects[i].lastModified, threshold)
      ensures Before(t, threshold)
    {
      BeforeIsStrictTotalOrder(t, objects[i].lastModified, threshold);
      BeforeIsStrictTotalOrder(objects[i].lastModified, t, threshold);
    }
  }

  /** The loop body of `get_unused_s3_buckets` as a function of the bucket. */
  function VerdictFor(listObjects: string -> ObjectListing, threshold: DateTime): Bucket -> Option<BucketEntry>
  {
    (b: Bucket) => Verdict(b, listObjects(b.name), threshold)
  }

  function UnusedBuckets(buckets: seq<Bucket>, listObjects: string -> ObjectListing, threshold: DateTime)
    : (r: seq<BucketEntry>)
    ensures |r| <= |buckets|
    ensures forall e :: e in r <==>
              exists i :: 0 <= i < |buckets| && e.bucketName == buckets[i].name &&
                          (var contents := listObjects(buckets[i].name).contents;
                           || (contents.None? && e.status == NoObjectsStatus)
                           || (&& contents.Some?
                               && (exists k :: 0 <= k < |contents.value| &&
                                               Before(contents.value[k].lastModified, threshold))
                               && e.status == NotAccessedStatus))
  {
    var f := VerdictFor(listObjects, threshold);
    forall i | 0 <= i < |buckets| && listObjects(buckets[i].name).contents.Some? &&
               |listObjects(buckets[i].name).contents.value| > 0 {
      EarliestBeforeIffSomeBefore(listObjects(buckets[i].name).contents.value, threshold);
    }
    assert forall i :: 0 <= i < |buckets| ==> f(buckets[i]) == Verdict(buckets[i], listObjects(buckets[i].name), threshold);
    Collect(buckets, f)
  }

  /** The reading the status text suggests, comparing the most recent modification: it flags
      a page only when ALL its objects are older than the threshold. */
  predicate NewestBefore(objects: seq<S3Object>, threshold: DateTime)
  {
    forall i :: 0 <= i < |objects| ==> Before(objects[i].lastModified, threshold)
  }

  /** A non-empty page that the most-recent reading would flag is also flagged by the
      earliest-time reduction, but not conversely: one old object among recent ones is enough. */
  lemma EarliestFlagsMore(b: Bucket, objects: seq<S3Object>, threshold: DateTime, stale: nat, recent: nat)
    requires stale < |objects| && recent < |objects|
    requires Before(objects[stale].lastModified, threshold)
    requires !Before(objects[recent].lastModified, threshold)
    ensures Verdict(b, ObjectListing(Some(objects)), threshold) == Some(BucketEntry(b.name, NotAccessedStatus))
    ensures !NewestBefore(objects, threshold)
  {
    EarliestBeforeIffSomeBefore(objects, threshold);
  }

  /** Each bucket yields at most one entry: with distinct bucket names, no name is listed
      twice. */
  lemma AtMostOncePerBucket(buckets: seq<Bucket>, listObjects: string -> ObjectListing,
                             threshold: DateTime)
    requires Distinct(buckets, (b: Bucket) => b.name)
    ensures Distinct(UnusedBuckets(buckets, listObjects, threshold), (e: BucketEntry) => e.bucketName)
  {
    var f := VerdictFor(listObjects, threshold);
    forall i | 0 <= i < |buckets| && f(buckets[i]).Some?
      ensures f(buckets[i]).value.bucketName == buckets[i].name
    {
      assert f(buckets[i]) == Verdict(buckets[i], listObjects(buckets[i].name), threshold);
    }
    CollectKeepsDistinct(buckets, f, (b: Bucket) => b.name, (e: BucketEntry) => e.bucketName);
  }

  /** Entries come out in bucket order. */
  lemma UnusedBucketsConcat(a: seq<Bucket>, b: seq<Bucket>, listObjects: string -> ObjectListing,
                            threshold: DateTime)
    ensures UnusedBuckets(a + b, listObjects, threshold) ==
            UnusedBuckets(a, listObjects, threshold) + UnusedBuckets(b, listObjects, threshold)
  {
    CollectConcat(a, b, VerdictFor(listObjects, threshold));
  }
}

=== FILE: datetimes.dfy ===
/** Calendar date-times as Python's `datetime` holds them: proleptic Gregorian calendar,
    years 1 to 9999, microsecond resolution. Every timestamp of the audit job is a UTC
    instant, so the time-zone part is left implicit. */
module DateTimes {

  datatype Fields = Fields(year: int, month: int, day: int,
                           hour: int, minute: int, second: int, microsecond: int)

  predicate IsLeapYear(y: int)
  {
    y % 4 == 0 && (y % 100 != 0 || y % 400 == 0)
  }

  function DaysInMonth(y: int, m: int): int
    requires 1 <= m <= 12
  {
    if m == 2 then (if IsLeapYear(y) then 29 else 28)
    else if m == 4 || m == 6 || m == 9 || m == 11 then 30
    else 31
  }

  /** The field ranges Python's `datetime` constructor enforces. */
  predicate ValidFields(f: Fields)
  {
    && 1 <= f.year <= 9999
    && 1 <= f.month <= 12
    && 1 <= f.day <= DaysInMonth(f.year, f.month)
    && 0 <= f.hour < 24
    && 0 <= f.minute < 60
    && 0 <= f.second < 60
    && 0 <= f.microsecond < 1000000
  }

  type DateTime = f: Fields | ValidFields(f) witness Fields(1, 1, 1, 0, 0, 0, 0)

  /** `a < b` on two aware datetimes with the same offset: Python compares the field tuples
      lexicographically. */
  predicate Before(a: DateTime, b: DateTime)
  {
    if a.year != b.year then a.year < b.year
    else if a.month != b.month then a.month < b.month
    else if a.day != b.day then a.day < b.day
    else if a.hour != b.hour then a.hour < b.hour
    else if a.minute != b.minute then a.minute < b.minute
    else if a.second != b.second then a.second < b.second
    else a.microsecond < b.microsecond
  }

  // Reference definition: the instant as a count of microseconds, through the day number
  // that `date.toordinal` computes (0001-01-01 is day 1).

  function DaysInYear(y: int): int
  {
    if IsLeapYear(y) then 366 else 365
  }

  function DaysBeforeYear(y: int): int
    requires y >= 1
  {
    var p := y - 1;
    365 * p + p / 4 - p / 100 + p / 400
  }

  function DaysBeforeMonth(y: int, m: int): int
    requires 1 <= m <= 12
  {
    var common :=
      if m == 1 then 0 else if m == 2 then 31 else if m == 3 then 59
      else if m == 4 then 90 else if m == 5 then 120 else if m == 6 then 151
      else if m == 7 then 181 else if m == 8 then 212 else if m == 9 then 243
      else if m == 10 then 273 else if m == 11 then 304 else 334;
    if m > 2 && IsLeapYear(y) then common + 1 else common
  }

  function Ordinal(d: DateTime): int
  {
    DaysBeforeYear(d.year) + DaysBeforeMonth(d.year, d.month) + d.day
  }

  function TimeOfDay(d: DateTime): int
  {
    ((d.hour * 60 + d.minute) * 60 + d.second) * 1000000 + d.microsecond
  }

  const MicrosPerDay: int := 86400000000

  /** Microseconds elapsed since the start of day 0 of the ordinal count. */
  function Elapsed(d: DateTime): int
  {
    Ordinal(d) * MicrosPerDay + TimeOfDay(d)
  }

  lemma YearStep(y: int)
    requires y >= 1
    ensures DaysBeforeYear(y + 1) == DaysBeforeYear(y) + DaysInYear(y)
  {
    var p := y - 1;
    assert y / 4 == p / 4 + (if y % 4 == 0 then 1 else 0);
    assert y / 100 == p / 100 + (if y % 100 == 0 then 1 else 0);
    assert y / 400 == p / 400 + (if y % 400 == 0 then 1 else 0);
  }

  /** A year's days all come before the next year's. */
  lemma {:induction false} YearsInOrder(y1: int, y2: int)
    requires 1 <= y1 < y2
    ensures DaysBeforeYear(y1) + DaysInYear(y1) <= DaysBeforeYear(y2)
    decreases y2 - y1
  {
    YearStep(y1);
    if y1 + 1 < y2 {
      YearsInOrder(y1 + 1, y2);
    }
  }

  lemma MonthStep(y: int, m: int)
    requires 1 <= m < 12
    ensures DaysBeforeMonth(y, m + 1) == DaysBeforeMonth(y, m) + DaysInMonth(y, m)
  {
  }

  lemma {:induction false} MonthsInOrder(y: int, m1: int, m2: int)
    requires 1 <= m1 < m2 <= 12
    ensures DaysBeforeMonth(y, m1) + DaysInMonth(y, m1) <= DaysBeforeMonth(y, m2)
    decreases m2 - m1
  {
    MonthStep(y, m1);
    if m1 + 1 < m2 {
      MonthsInOrder(y, m1 + 1, m2);
    }
  }

  /** The day number of a date lies within the days of its year. */
  lemma OrdinalInYear(d: DateTime)
    ensures DaysBeforeYear(d.year) < Ordinal(d) <= DaysBeforeYear(d.year) + DaysInYear(d.year)
  {
    assert DaysBeforeMonth(d.year, d.month) + DaysInMonth(d.year, d.month) <= DaysInYear(d.year);
  }

  /** Calendar order of the dates is the order of their day numbers. */
  lemma OrdinalOrder(a: DateTime, b: DateTime)
    ensures (a.year, a.month, a.day) == (b.year, b.month, b.day) <==> Ordinal(a) == Ordinal(b)
    ensures (a.year < b.year || (a.year == b.year && (a.month < b.month ||
              (a.month == b.month && a.day < b.day)))) <==> Ordinal(a) < Ordinal(b)
  {
    OrdinalInYear(a);
    OrdinalInYear(b);
    if a.year < b.year {
      YearsInOrder(a.year, b.year);
    } else if b.year < a.year {
      YearsInOrder(b.year, a.year);
    } else if a.month < b.month {
      MonthsInOrder(a.year, a.month, b.month);
    } else if b.month < a.month {
      MonthsInOrder(a.year, b.month, a.month);
    }
  }

  /** Python's field-by-field comparison agrees with comparing the instants as elapsed time,
      so `Before` is the chronological order. */
  lemma BeforeIsChronological(a: DateTime, b: DateTime)
    ensures Before(a, b) <==> Elapsed(a) < Elapsed(b)
  {
    OrdinalOrder(a, b);
    assert 0 <= TimeOfDay(a) < MicrosPerDay;
    assert 0 <= TimeOfDay(b) < MicrosPerDay;
    if Ordinal(a) < Ordinal(b) {
      assert Ordinal(a) * MicrosPerDay + MicrosPerDay <= Ordinal(b) * MicrosPerDay;
    } else if Ordinal(b) < Ordinal(a) {
      assert Ordinal(b) * MicrosPerDay + MicrosPerDay <= Ordinal(a) * MicrosPerDay;
    }
  }

  /** `Before` is a strict total order on date-times. */
  lemma BeforeIsStrictTotalOrder(a: DateTime, b: DateTime, c: DateTime)
    ensures !Before(a, a)
    ensures Before(a, b) && Before(b, c) ==> Before(a, c)
    ensures a == b || Before(a, b) || Before(b, a)
  {
    BeforeIsChronological(a, b);
    BeforeIsChronological(b, c);
    BeforeIsChronological(a, c);
    BeforeIsChronological(b, a);
  }
}

=== FILE: elasticips.dfy ===
/** `get_unattached_elastic_ips`: allocated addresses without an association. The
    `describe_addresses` listing is the input sequence. */
module ElasticIps {
  import opened Outcomes
  import opened Sequences

  datatype Address = Address(publicIp: string, allocationId: string, associationId: Option<string>)

  /** Only the two fields the report carries. */
  datatype EipEntry = EipEntry(publicIp: string, allocationId: string)

  function Verdict(a: Address): Option<EipEntry>
  {
    if a.associationId.None? then Some(EipEntry(a.publicIp, a.allocationId)) else None
  }

  function UnattachedElasticIps(addresses: seq<Address>): (r: seq<EipEntry>)
    ensures |r| <= |addresses|
    ensures forall e :: e in r <==>
              exists i :: 0 <= i < |addresses| && addresses[i].associationId.None? &&
                          e == EipEntry(addresses[i].publicIp, addresses[i].allocationId)
  {
    Collect(addresses, Verdict)
  }

  /** One entry per unassociated address, no more and no fewer. */
  lemma UnattachedCount(addresses: seq<Address>)
    ensures |UnattachedElasticIps(addresses)| ==
            |set i | 0 <= i < |addresses| && addresses[i].associationId.None?|
  {
    CollectCount(addresses, Verdict);
    assert KeptIndices(addresses, Verdict) == set i | 0 <= i < |addresses| && addresses[i].associationId.None?;
  }

  /** Entries come out in address order. */
  lemma UnattachedConcat(a: seq<Address>, b: seq<Address>)
    ensures UnattachedElasticIps(a + b) == UnattachedElasticIps(a) + UnattachedElasticIps(b)
  {
    CollectConcat(a, b, Verdict);
  }
}

=== FILE: instances.dfy ===
/** `get_stopped_ec2_instances`: stopped instances whose `StateTransitionReason` carries a
    user-initiated stop time older than the threshold. The `describe_instances` response
    (already filtered to the `stopped` state by the provider) is the input sequence of
    reservations. */
module Instances {
  import opened Outcomes
  import opened Sequences
  import opened DateTimes
  import opened Text
  import opened TimeText

  datatype Instance = Instance(instanceId: string, stateTransitionReason: Option<string>)

  datatype Reservation = Reservation(instances: seq<Instance>)

  datatype StoppedEntry = StoppedEntry(instanceId: string, stoppedSince: string)

  const UserInitiated: string := "User initiated"

  /** `instance.get('StateTransitionReason', "")`. */
  function ReasonText(i: Instance): string
  {
    match i.stateTransitionReason
    case None => ""
    case Some(reason) => reason
  }

  /** `reason.split('(')[-1].strip(')')`. */
  function StopTimeText(reason: string): string
  {
    Strip(AfterLast(reason, '('), ')')
  }

  /** The stop time a reason gives: None when the reason is empty, lacks the marker, or its
      candidate text does not parse (the ValueError the loop catches and skips). */
  function StoppedAt(reason: string): Option<DateTime>
  {
    if |reason| > 0 && Contains(reason, UserInitiated) then ParseGmt(StopTimeText(reason))
    else None
  }

  /** One iteration of the inner loop. */
  function Verdict(i: Instance, threshold: DateTime): Option<StoppedEntry>
  {
    match StoppedAt(ReasonText(i))
    case None => None
    case Some(t) => if Before(t, threshold) then Some(StoppedEntry(i.instanceId, IsoText(t))) else None
  }

  /** The inner loop body as a function of the instance. */
  function VerdictAt(threshold: DateTime): Instance -> Option<StoppedEntry>
  {
    (i: Instance) => Verdict(i, threshold)
  }

  function InstancesOf(res: Reservation, threshold: DateTime): seq<StoppedEntry>
  {
    Collect(res.instances, VerdictAt(threshold))
  }

  /** The outer loop body as a function of the reservation. */
  function InstancesAt(threshold: DateTime): Reservation -> seq<StoppedEntry>
  {
    (res: Reservation) => InstancesOf(res, threshold)
  }

  /** Within one reservation, entries come out in instance order. */
  lemma InstancesOfConcat(a: seq<Instance>, b: seq<Instance>, threshold: DateTime)
    ensures InstancesOf(Reservation(a + b), threshold) ==
            InstancesOf(Reservation(a), threshold) + InstancesOf(Reservation(b), threshold)
  {
    CollectConcat(a, b, VerdictAt(threshold));
  }

  /** The instance is reported with entry `e`: its reason carries the marker, the text after
      the last `(` parses as a stop time, and that time is before the threshold. */
  ghost predicate Flagged(inst: Instance, threshold: DateTime, e: StoppedEntry)
  {
    var reason := ReasonText(inst);
    var parsed := ParseGmt(StopTimeText(reason));
    && Contains(reason, UserInitiated)
    && parsed.Some?
    && Before(parsed.value, threshold)
    && e == StoppedEntry(inst.instanceId, IsoText(parsed.value))
  }

  lemma VerdictMeaning(inst: Instance, threshold: DateTime, e: StoppedEntry)
    ensures Verdict(inst, threshold) == Some(e) <==> Flagged(inst, threshold, e)
  {
    var reason := ReasonText(inst);
    if Contains(reason, UserInitiated) {
      var k :| OccursAt(reason, UserInitiated, k);
      assert |reason| > 0;
    }
  }

  lemma InstancesOfMeaning(res: Reservation, threshold: DateTime, e: StoppedEntry)
    ensures e in InstancesOf(res, threshold) <==>
            exists q :: 0 <= q < |res.instances| && Flagged(res.instances[q], threshold, e)
  {
    forall q | 0 <= q < |res.instances| {
      VerdictMeaning(res.instances[q], threshold, e);
    }
  }

  function StoppedInstances(reservations: seq<Reservation>, threshold: DateTime): (r: seq<StoppedEntry>)
    ensures forall e :: e in r <==>
              exists p, q :: 0 <= p < |reservations| && 0 <= q < |reservations[p].instances| &&
                             Flagged(reservations[p].instances[q], threshold, e)
  {
    var f := InstancesAt(threshold);
    assert forall p :: 0 <= p < |reservations| ==> f(reservations[p]) == InstancesOf(reservations[p], threshold);
    forall p, e | 0 <= p < |reservations| {
      InstancesOfMeaning(reservations[p], threshold, e);
    }
    FlatMap(reservations, f)
  }

  /** Entries come out in reservation order; `InstancesOfConcat` gives the order within one
      reservation. */
  lemma StoppedInstancesConcat(a: seq<Reservation>, b: seq<Reservation>, threshold: DateTime)
    ensures StoppedInstances(a + b, threshold) == StoppedInstances(a, threshold) + StoppedInstances(b, threshold)
  {
    FlatMapConcat(a, b, InstancesAt(threshold));
  }

  /** Every instance of every reservation, in reservation-then-instance order. */
  function AllInstances(reservations: seq<Reservation>): seq<Instance>
    decreases |reservations|
  {
    if |reservations| == 0 then []
    else AllInstances(reservations[..|reservations| - 1]) + reservations[|reservations| - 1].instances
  }

  /** The nested loop is one filter loop over all instances in reservation-then-instance order. */
  lemma {:induction false} StoppedInstancesIsFlatFilter(reservations: seq<Reservation>, threshold: DateTime)
    ensures StoppedInstances(reservations, threshold) == Collect(AllInstances(reservations), VerdictAt(threshold))
    decreases |reservations|
  {
    if |reservations| > 0 {
      var n := |reservations| - 1;
      var init := reservations[..n];
      StoppedInstancesIsFlatFilter(init, threshold);
      CollectConcat(AllInstances(init), reservations[n].instances, VerdictAt(threshold));
      assert StoppedInstances(reservations, threshold) ==
             StoppedInstances(init, threshold) + InstancesOf(reservations[n], threshold);
    }
  }

  /** Each reported instance is listed exactly once: the list is as long as the number of
      instances whose verdict reports them. */
  lemma StoppedInstancesCount(reservations: seq<Reservation>, threshold: DateTime)
    ensures var all := AllInstances(reservations);
            |StoppedInstances(reservations, threshold)| ==
            |set i | 0 <= i < |all| && Verdict(all[i], threshold).Some?|
  {
    var all := AllInstances(reservations);
    StoppedInstancesIsFlatFilter(reservations, threshold);
    CollectCount(all, VerdictAt(threshold));
    assert KeptIndices(all, VerdictAt(threshold)) == set i | 0 <= i < |all| && Verdict(all[i], threshold).Some?;
  }

  lemma MarkerStaysContained(p: string, rest: string)
    requires Contains(p, UserInitiated)
    ensures Contains(p + rest, UserInitiated)
  {
    var k :| OccursAt(p, UserInitiated, k);
    assert (p + rest)[k..k + |UserInitiated|] == p[k..k + |UserInitiated|];
    assert OccursAt(p + rest, UserInitiated, k);
  }

  /** The separators of the GMT text are none of `(` and `)`. */
  lemma GmtTextHasNoParens(d: DateTime)
    ensures |GmtText(d)| == 23
    ensures '(' !in GmtText(d) && ')' !in GmtText(d)
  {
    var s := GmtText(d);
    GmtTextFields(d);
    forall k | 0 <= k < |s| ensures s[k] != '(' && s[k] != ')' {
      if k < 4 {
        assert s[..4][k] == s[k];
      } else if 5 <= k < 7 {
        assert s[5..7][k - 5] == s[k];
      } else if 8 <= k < 10 {
        assert s[8..10][k - 8] == s[k];
      } else if 11 <= k < 13 {
        assert s[11..13][k - 11] == s[k];
      } else if 14 <= k < 16 {
        assert s[14..16][k - 14] == s[k];
      } else if 17 <= k < 19 {
        assert s[17..19][k - 17] == s[k];
      } else if 19 <= k {
        assert s[19..][k - 19] == s[k];
      }
    }
  }

  /** The candidate text of a reason ending in `(x)` is `x`, when `x` holds no parenthesis. */
  lemma StopTimeTextOf(prefix: string, x: string)
    requires '(' !in x && ')' !in x
    ensures StopTimeText(prefix + "(" + x + ")") == x
  {
    var reason := prefix + "(" + x + ")";
    assert reason == prefix + ['('] + (x + ")");
    assert '(' !in x + ")";
    AfterLastOf(prefix, x + ")", '(');
    if |x| == 0 {
      assert x + ")" == ")";
      assert StripLeft(")", ')') == "";
    } else {
      StripTrailing(x, ')');
    }
  }

  /** A reason `<text with the marker> (x)` yields the time `x` parses to. */
  lemma ReasonWithTime(prefix: string, x: string)
    requires Contains(prefix, UserInitiated)
    requires '(' !in x && ')' !in x
    ensures StoppedAt(prefix + "(" + x + ")") == ParseGmt(x)
  {
    MarkerStaysContained(prefix, "(" + x + ")");
    assert prefix + "(" + x + ")" == prefix + ("(" + x + ")");
    StopTimeTextOf(prefix, x);
  }

  /** A reason written as the provider writes it, `<text with the marker> (<time> GMT)`, gives
      back the time it was written from. */
  lemma ReasonRoundTrip(prefix: string, d: DateTime)
    requires Contains(prefix, UserInitiated)
    requires d.microsecond == 0
    ensures StoppedAt(prefix + "(" + GmtText(d) + ")") == Some(d)
  {
    GmtTextHasNoParens(d);
    ReasonWithTime(prefix, GmtText(d));
    ParseOfGmtText(d);
  }

  lemma ExampleDigits()
    ensures Digits(2023, 4) == "2023" && Digits(1, 2) == "01" && Digits(0, 2) == "00"
  {
    assert Digits(2, 1) == Digits(0, 0) + [DigitChar(2)] == "2";
    assert Digits(20, 2) == Digits(2, 1) + [DigitChar(0)] == "20";
    assert Digits(202, 3) == Digits(20, 2) + [DigitChar(2)] == "202";
    assert Digits(2023, 4) == Digits(202, 3) + [DigitChar(3)] == "2023";
    assert Digits(0, 1) == Digits(0, 0) + [DigitChar(0)] == "0";
    assert Digits(1, 2) == Digits(0, 1) + [DigitChar(1)] == "01";
    assert Digits(0, 2) == Digits(0, 1) + [DigitChar(0)] == "00";
  }

  lemma ExampleTexts(d: DateTime)
    requires d == Fields(2023, 1, 1, 0, 0, 0, 0)
    ensures GmtText(d) == "2023-01-01 00:00:00 GMT"
    ensures IsoText(d) == "2023-01-01T00:00:00+00:00"
  {
    ExampleDigits();
    assert DatePart(d) == "2023-01-01";
    assert ClockPart(d) == "00:00:00";
  }

  lemma ExampleReasonParses(d: DateTime)
    requires d == Fields(2023, 1, 1, 0, 0, 0, 0)
    ensures StoppedAt(UserInitiated + " " + "(" + "2023-01-01 00:00:00 GMT" + ")") == Some(d)
  {
    ExampleTexts(d);
    var prefix := UserInitiated + " ";
    assert prefix[0..|UserInitiated|] == UserInitiated;
    assert OccursAt(prefix, UserInitiated, 0);
    ReasonRoundTrip(prefix, d);
  }

  /** A user-initiated stop: the reason `User initiated (2023-01-01 00:00:00 GMT)` gives the
      stop time 2023-01-01 at midnight, reported with ISO text `2023-01-01T00:00:00+00:00` when
      the threshold is later. */
  lemma UserInitiatedExample(id: string, threshold: DateTime)
    requires Before(Fields(2023, 1, 1, 0, 0, 0, 0), threshold)
    ensures Verdict(Instance(id, Some(UserInitiated + " " + "(" + "2023-01-01 00:00:00 GMT" + ")")), threshold) ==
            Some(StoppedEntry(id, "2023-01-01T00:00:00+00:00"))
  {
    var d: DateTime := Fields(2023, 1, 1, 0, 0, 0, 0);
    ExampleReasonParses(d);
    ExampleTexts(d);
  }
}

=== FILE: loadbalancers.dfy ===
/** `get_loadbalancers_without_targets`: one entry per (load balancer, target group without
    registered targets) pair, in load-balancer-then-target-group order, never deduplicated.
    The load-balancer listing is the input sequence; `describe_target_groups` by load-balancer
    ARN and `describe_target_health` by target-group ARN are the `targetGroups` and
    `targetHealth` parameters. */
module LoadBalancers {
  import opened Outcomes
  import opened Sequences

  datatype LoadBalancer = LoadBalancer(loadBalancerName: string, loadBalancerArn: string)

  datatype TargetGroup = TargetGroup(targetGroupArn: string)

  datatype TargetHealthDescription = TargetHealthDescription(targetId: string, healthState: string)

  datatype LbEntry = LbEntry(loadBalancerName: string, loadBalancerArn: string)

  function EntryOf(lb: LoadBalancer): LbEntry
  {
    LbEntry(lb.loadBalancerName, lb.loadBalancerArn)
  }

  /** The inner loop over one load balancer's target groups. */
  function EmptyGroupEntries(lb: LoadBalancer, targetGroups: string -> seq<TargetGroup>,
                             targetHealth: string -> seq<TargetHealthDescription>): seq<LbEntry>
  {
    Collect(targetGroups(lb.loadBalancerArn),
            (g: TargetGroup) => if |targetHealth(g.targetGroupArn)| == 0 then Some(EntryOf(lb)) else None)
  }

  function LoadBalancersWithoutTargets(balancers: seq<LoadBalancer>, targetGroups: string -> seq<TargetGroup>,
                                       targetHealth: string -> seq<TargetHealthDescription>)
    : (r: seq<LbEntry>)
    ensures forall e :: e in r <==>
              exists i, j :: 0 <= i < |balancers| && 0 <= j < |targetGroups(balancers[i].loadBalancerArn)| &&
                             |targetHealth(targetGroups(balancers[i].loadBalancerArn)[j].targetGroupArn)| == 0 &&
                             e == EntryOf(balancers[i])
  {
    var f := lb => EmptyGroupEntries(lb, targetGroups, targetHealth);
    assert forall i :: 0 <= i < |balancers| ==> f(balancers[i]) == EmptyGroupEntries(balancers[i], targetGroups, targetHealth);
    FlatMap(balancers, f)
  }

  /** The positions of the balancer's target groups that have no registered targets. */
  function EmptyGroups(lb: LoadBalancer, targetGroups: string -> seq<TargetGroup>,
                       targetHealth: string -> seq<TargetHealthDescription>): set<int>
  {
    var groups := targetGroups(lb.loadBalancerArn);
    set j | 0 <= j < |groups| && |targetHealth(groups[j].targetGroupArn)| == 0
  }

  /** `n` copies of `e`. */
  function Repeat(e: LbEntry, n: nat): seq<LbEntry>
  {
    seq(n, _ => e)
  }

  /** A balancer with K target groups lacking targets contributes exactly K copies of its
      entry (none when it has no target groups at all). */
  lemma BalancerContribution(lb: LoadBalancer, targetGroups: string -> seq<TargetGroup>,
                             targetHealth: string -> seq<TargetHealthDescription>)
    ensures EmptyGroupEntries(lb, targetGroups, targetHealth) ==
            Repeat(EntryOf(lb), |EmptyGroups(lb, targetGroups, targetHealth)|)
  {
    var groups := targetGroups(lb.loadBalancerArn);
    var f := (g: TargetGroup) => if |targetHealth(g.targetGroupArn)| == 0 then Some(EntryOf(lb)) else None;
    CollectCount(groups, f);
    assert KeptIndices(groups, f) == EmptyGroups(lb, targetGroups, targetHealth);
    var r := EmptyGroupEntries(lb, targetGroups, targetHealth);
    forall k | 0 <= k < |r| ensures r[k] == EntryOf(lb) {
      assert r[k] in r;
    }
  }

  /** The whole output: each balancer in turn, repeated once per target group without
      targets. */
  lemma {:induction false} WithoutTargetsIsRepetition(balancers: seq<LoadBalancer>,
                                                      targetGroups: string -> seq<TargetGroup>,
                                                      targetHealth: string -> seq<TargetHealthDescription>)
    ensures LoadBalancersWithoutTargets(balancers, targetGroups, targetHealth) ==
            FlatMap(balancers, lb => Repeat(EntryOf(lb), |EmptyGroups(lb, targetGroups, targetHealth)|))
    decreases |balancers|
  {
    if |balancers| > 0 {
      var n := |balancers| - 1;
      WithoutTargetsIsRepetition(balancers[..n], targetGroups, targetHealth);
      BalancerContribution(balancers[n], targetGroups, targetHealth);
    }
  }

  /** The entries for a list of balancers are those of its first part followed by those of
      the rest. */
  lemma WithoutTargetsConcat(a: seq<LoadBalancer>, b: seq<LoadBalancer>, targetGroups: string -> seq<TargetGroup>,
                             targetHealth: string -> seq<TargetHealthDescription>)
    ensures LoadBalancersWithoutTargets(a + b, targetGroups, targetHealth) ==
            LoadBalancersWithoutTargets(a, targetGroups, targetHealth) +
            LoadBalancersWithoutTargets(b, targetGroups, targetHealth)
  {
    FlatMapConcat(a, b, lb => EmptyGroupEntries(lb, targetGroups, targetHealth));
  }
}

=== FILE: natgateways.dfy ===
/** `get_unattached_nat_gateways`: gateways in a state that no longer serves traffic. The
    `describe_nat_gateways` listing is the input sequence. */
module NatGateways {
  import opened Outcomes
  import opened Sequences

  datatype NatGateway = NatGateway(natGatewayId: string, state: string, vpcId: string, subnetId: string)

  datatype NatEntry = NatEntry(natGatewayId: string, state: string, vpcId: string, subnetId: string)

  const TerminalStates: set<string> := {"deleted", "deleting", "failed"}

  function Verdict(g: NatGateway): Option<NatEntry>
  {
    if g.state in TerminalStates then Some(NatEntry(g.natGatewayId, g.state, g.vpcId, g.subnetId)) else None
  }

  function UnattachedNatGateways(gateways: seq<NatGateway>): (r: seq<NatEntry>)
    ensures |r| <= |gateways|
    ensures forall e :: e in r ==> e.state in TerminalStates
    ensures forall e :: e in r <==>
              exists i :: 0 <= i < |gateways| && gateways[i].state in TerminalStates &&
                          e == NatEntry(gateways[i].natGatewayId, gateways[i].state,
                                        gateways[i].vpcId, gateways[i].subnetId)
  {
    Collect(gateways, Verdict)
  }

  /** One entry per gateway in a terminal state, no more and no fewer. */
  lemma UnattachedCount(gateways: seq<NatGateway>)
    ensures |UnattachedNatGateways(gateways)| ==
            |set i | 0 <= i < |gateways| && gateways[i].state in TerminalStates|
  {
    CollectCount(gateways, Verdict);
    assert KeptIndices(gateways, Verdict) == set i | 0 <= i < |gateways| && gateways[i].state in TerminalStates;
  }

  /** Entries come out in gateway order. */
  lemma UnattachedConcat(a: seq<NatGateway>, b: seq<NatGateway>)
    ensures UnattachedNatGateways(a + b) == UnattachedNatGateways(a) + UnattachedNatGateways(b)
  {
    CollectConcat(a, b, Verdict);
  }
}

=== FILE: outcomes.dfy ===
/** Failure-carrying values used by the detectors.
    - Option<T> stands for a Python value that may be None (or a missing dict key);
    - Result<T, E> stands for a computation that either returns a value or raises. */
module Outcomes {

  datatype Option<+T> = None | Some(value: T)

  datatype Result<+T, +E> = Success(value: T) | Failure(error: E)
}

=== FILE: report.dfy ===
/** `lambda_handler`: runs the seven detectors in their fixed order, binds their outputs to the
    seven report keys, and answers with status 200 and the report. A detector that raises
    aborts the whole run, so no report is produced. */
module Report {
  import opened Outcomes
  import opened DateTimes
  import opened Sequences
  import S = Snapshots
  import V = Volumes
  import L = LoadBalancers
  import N = NatGateways
  import E = ElasticIps
  import I = Instances
  import B = Buckets

  /** What the provider answers, one field per listing call and one function per call made
      for a single resource. */
  datatype Provider = Provider(
    snapshots: seq<S.Snapshot>,
    describeVolume: string -> S.DescribeVolumes,
    volumes: seq<V.Volume>,
    lookupEvents: string -> seq<V.Event>,
    loadBalancers: seq<L.LoadBalancer>,
    targetGroups: string -> seq<L.TargetGroup>,
    targetHealth: string -> seq<L.TargetHealthDescription>,
    natGateways: seq<N.NatGateway>,
    addresses: seq<E.Address>,
    reservations: seq<I.Reservation>,
    buckets: seq<B.Bucket>,
    listObjects: string -> B.ObjectListing)

  datatype AuditReport = AuditReport(
    natGateways: seq<N.NatEntry>,
    elasticIps: seq<E.EipEntry>,
    stoppedInstances: seq<I.StoppedEntry>,
    buckets: seq<B.BucketEntry>,
    loadBalancers: seq<L.LbEntry>,
    volumes: seq<V.VolumeEntry>,
    snapshots: seq<string>)

  /** The value bound to one key of the report dictionary. */
  datatype Section =
    | NatGatewaySection(natGateways: seq<N.NatEntry>)
    | ElasticIpSection(elasticIps: seq<E.EipEntry>)
    | StoppedInstanceSection(stoppedInstances: seq<I.StoppedEntry>)
    | BucketSection(buckets: seq<B.BucketEntry>)
    | LoadBalancerSection(loadBalancers: seq<L.LbEntry>)
    | VolumeSection(volumes: seq<V.VolumeEntry>)
    | SnapshotSection(snapshots: seq<string>)

  const ReportKeys: seq<string> := [
    "UnattachedNATGateways", "UnattachedElasticIPs", "stopped-instances", "Unused-s3-buckets",
    "loadbalancer-without-target", "Unused-volumes", "Unused-snapshots"]

  /** The report dictionary: exactly the seven keys, each bound to its detector's list. */
  function Sections(report: AuditReport): (d: map<string, Section>)
    ensures d.Keys == set k | k in ReportKeys
  {
    map[
      "UnattachedNATGateways" := NatGatewaySection(report.natGateways),
      "UnattachedElasticIPs" := ElasticIpSection(report.elasticIps),
      "stopped-instances" := StoppedInstanceSection(report.stoppedInstances),
      "Unused-s3-buckets" := BucketSection(report.buckets),
      "loadbalancer-without-target" := LoadBalancerSection(report.loadBalancers),
      "Unused-volumes" := VolumeSection(report.volumes),
      "Unused-snapshots" := SnapshotSection(report.snapshots)]
  }

  /** No two detectors share a key, so no list overwrites another in the dictionary. */
  lemma ReportKeysDistinct()
    ensures Distinct(ReportKeys, (k: string) => k)
  {
  }

  /** The report dictionary holds seven entries, one per detector. */
  lemma SectionsHaveSevenKeys(report: AuditReport)
    ensures |Sections(report)| == 7
  {
    ReportKeysDistinct();
    DistinctCardinality(ReportKeys);
    var d := Sections(report);
    assert |d| == |d.Keys|;
  }

  /** The exceptions that escape `lambda_handler`. */
  datatype AuditFault =
    | SnapshotsFailed(snapshotFault: S.SnapshotFault)
    | VolumesFailed(volumeFault: V.VolumeFault)

  datatype Response = Response(statusCode: int, report: AuditReport)

  function LambdaHandler(p: Provider, threshold: DateTime): (r: Result<Response, AuditFault>)
    ensures r.Success? <==>
              && S.SnapshotsToDelete(p.snapshots, p.describeVolume).Success?
              && V.OldUnusedVolumes(p.volumes, p.lookupEvents, threshold).Success?
    ensures r.Success? ==>
              && r.value.statusCode == 200
              && r.value.report.snapshots == S.SnapshotsToDelete(p.snapshots, p.describeVolume).value
              && r.value.report.volumes == V.OldUnusedVolumes(p.volumes, p.lookupEvents, threshold).value
              && r.value.report.loadBalancers == L.LoadBalancersWithoutTargets(p.loadBalancers, p.targetGroups, p.targetHealth)
              && r.value.report.natGateways == N.UnattachedNatGateways(p.natGateways)
              && r.value.report.elasticIps == E.UnattachedElasticIps(p.addresses)
              && r.value.report.stoppedInstances == I.StoppedInstances(p.reservations, threshold)
              && r.value.report.buckets == B.UnusedBuckets(p.buckets, p.listObjects, threshold)
    ensures S.SnapshotsToDelete(p.snapshots, p.describeVolume).Failure? ==>
              r == Failure(SnapshotsFailed(S.SnapshotsToDelete(p.snapshots, p.describeVolume).error))
    ensures && S.SnapshotsToDelete(p.snapshots, p.describeVolume).Success?
            && V.OldUnusedVolumes(p.volumes, p.lookupEvents, threshold).Failure? ==>
              r == Failure(VolumesFailed(V.OldUnusedVolumes(p.volumes, p.lookupEvents, threshold).error))
  {
    match S.SnapshotsToDelete(p.snapshots, p.describeVolume)
    case Failure(e) => Failure(SnapshotsFailed(e))
    case Success(snapshots) =>
      match V.OldUnusedVolumes(p.volumes, p.lookupEvents, threshold)
      case Failure(e) => Failure(VolumesFailed(e))
      case Success(volumes) =>
        var loadBalancers := L.LoadBalancersWithoutTargets(p.loadBalancers, p.targetGroups, p.targetHealth);
        var natGateways := N.UnattachedNatGateways(p.natGateways);
        var elasticIps := E.UnattachedElasticIps(p.addresses);
        var stoppedInstances := I.StoppedInstances(p.reservations, threshold);
        var buckets := B.UnusedBuckets(p.buckets, p.listObjects, threshold);
        Success(Response(200, AuditReport(natGateways, elasticIps, stoppedInstances, buckets,
                                          loadBalancers, volumes, snapshots)))
  }

  /** An account with nothing in it still gets a report with all seven keys, each bound to an
      empty list. */
  lemma EmptyAccountReport(p: Provider, threshold: DateTime)
    requires p.snapshots == [] && p.volumes == [] && p.loadBalancers == [] && p.natGateways == []
    requires p.addresses == [] && p.reservations == [] && p.buckets == []
    ensures LambdaHandler(p, threshold).Success?
    ensures var report := LambdaHandler(p, threshold).value.report;
            && LambdaHandler(p, threshold).value.statusCode == 200
            && Sections(report).Keys == set k | k in ReportKeys
            && Sections(report) == map[
                 "UnattachedNATGateways" := NatGatewaySection([]),
                 "UnattachedElasticIPs" := ElasticIpSection([]),
                 "stopped-instances" := StoppedInstanceSection([]),
                 "Unused-s3-buckets" := BucketSection([]),
                 "loadbalancer-without-target" := LoadBalancerSection([]),
                 "Unused-volumes" := VolumeSection([]),
                 "Unused-snapshots" := SnapshotSection([])]
  {
  }
}

=== FILE: sequences.dfy ===
/** The loop shapes the audit job is built from, stated once:
    - Collect: `for x in xs: if cond(x): out.append(entry(x))`, with `f(x) == Some(entry)`
      exactly when the entry is appended;
    - TryCollect: the same loop where examining an element may raise, which aborts the loop;
    - FlatMap: a nested loop, appending the inner results in outer-then-inner order. */
module Sequences {
  import opened Outcomes

  function Collect<A, B(==, !new)>(xs: seq<A>, f: A -> Option<B>): (r: seq<B>)
    ensures |r| <= |xs|
    ensures forall y :: y in r <==> exists i :: 0 <= i < |xs| && f(xs[i]) == Some(y)
    decreases |xs|
  {
    if |xs| == 0 then []
    else
      var init := xs[..|xs| - 1];
      var before := Collect(init, f);
      assert forall i :: 0 <= i < |init| ==> init[i] == xs[i];
      match f(xs[|xs| - 1])
      case Some(y) => before + [y]
      case None => before
  }

  /** The indices of the elements that `Collect` keeps. */
  function KeptIndices<A, B>(xs: seq<A>, f: A -> Option<B>): set<int>
  {
    set i | 0 <= i < |xs| && f(xs[i]).Some?
  }

  /** Extending the input by one element adds its index to the kept set exactly when it is kept. */
  lemma KeptIndicesStep<A, B>(xs: seq<A>, f: A -> Option<B>)
    requires |xs| > 0
    ensures KeptIndices(xs, f) ==
            KeptIndices(xs[..|xs| - 1], f) + (if f(xs[|xs| - 1]).Some? then {|xs| - 1} else {})
  {
    var n := |xs| - 1;
    var init := xs[..n];
    forall i | i in KeptIndices(xs, f) && i < n ensures i in KeptIndices(init, f) {
      assert init[i] == xs[i];
    }
    forall i | i in KeptIndices(init, f) ensures i in KeptIndices(xs, f) {
      assert init[i] == xs[i];
    }
  }

  /** One output element per kept input element, no more and no fewer. */
  lemma {:induction false} CollectCount<A, B(!new)>(xs: seq<A>, f: A -> Option<B>)
    ensures |Collect(xs, f)| == |KeptIndices(xs, f)|
    decreases |xs|
  {
    if |xs| > 0 {
      var n := |xs| - 1;
      var init := xs[..n];
      CollectCount(init, f);
      KeptIndicesStep(xs, f);
      var before := KeptIndices(init, f);
      assert n !in before;
      if f(xs[n]).Some? {
        assert |before + {n}| == |before| + 1;
      }
    }
  }

  /** No two elements of `ys` share a key. */
  ghost predicate Distinct<B, K>(ys: seq<B>, key: B -> K)
  {
    forall p, q :: 0 <= p < q < |ys| ==> key(ys[p]) != key(ys[q])
  }

  /** A sequence without repeated elements has as many distinct elements as positions. */
  lemma {:induction false} DistinctCardinality<T>(xs: seq<T>)
    requires Distinct(xs, (x: T) => x)
    ensures |set x | x in xs| == |xs|
    decreases |xs|
  {
    if |xs| > 0 {
      var init := xs[..|xs| - 1];
      var last := xs[|xs| - 1];
      DistinctCardinality(init);
      assert (set x | x in xs) == (set x | x in init) + {last};
      assert last !in init;
    }
  }

  /** When every kept entry carries the key of the element it came from, distinct keys in
      the input give distinct keys in the output: no element is reported twice. */
  lemma {:induction false} CollectKeepsDistinct<A, B(!new), K>(xs: seq<A>, f: A -> Option<B>,
                                                               inKey: A -> K, outKey: B -> K)
    requires forall i :: 0 <= i < |xs| && f(xs[i]).Some? ==> outKey(f(xs[i]).value) == inKey(xs[i])
    requires Distinct(xs, inKey)
    ensures Distinct(Collect(xs, f), outKey)
    decreases |xs|
  {
    if |xs| > 0 {
      var n := |xs| - 1;
      var init := xs[..n];
      assert forall i :: 0 <= i < n ==> init[i] == xs[i];
      CollectKeepsDistinct(init, f, inKey, outKey);
      var before := Collect(init, f);
      var r := Collect(xs, f);
      if f(xs[n]).Some? {
        assert r == before + [f(xs[n]).value];
        forall p | 0 <= p < |before| ensures outKey(before[p]) != outKey(r[|before|]) {
          assert before[p] in before;
          var i :| 0 <= i < n && f(init[i]) == Some(before[p]);
          assert inKey(xs[i]) != inKey(xs[n]);
        }
        forall p, q | 0 <= p < q < |r| ensures outKey(r[p]) != outKey(r[q]) {
          if q < |before| {
            assert r[p] == before[p] && r[q] == before[q];
          }
        }
      } else {
        assert r == before;
      }
    }
  }

  /** Output order follows input order: the entries for a prefix come first. */
  lemma {:induction false} CollectConcat<A, B(!new)>(a: seq<A>, b: seq<A>, f: A -> Option<B>)
    ensures Collect(a + b, f) == Collect(a, f) + Collect(b, f)
    decreases |b|
  {
    if |b| == 0 {
      assert a + b == a;
    } else {
      var b' := b[..|b| - 1];
      assert (a + b)[..|a + b| - 1] == a + b';
      assert (a + b)[|a + b| - 1] == b[|b| - 1];
      CollectConcat(a, b', f);
    }
  }

  /** Appends the result of examining a later part of the input to the result for an earlier
      part; the earlier failure wins, as the loop stops at the first exception. */
  function AppendResults<B, E>(first: Result<seq<B>, E>, second: Result<seq<B>, E>): Result<seq<B>, E>
  {
    match first
    case Failure(e) => Failure(e)
    case Success(xs) =>
      match second
      case Failure(e) => Failure(e)
      case Success(ys) => Success(xs + ys)
  }

  function TryCollect<A, B(==, !new), E(==)>(xs: seq<A>, f: A -> Result<Option<B>, E>): (r: Result<seq<B>, E>)
    ensures r.Success? <==> forall i :: 0 <= i < |xs| ==> f(xs[i]).Success?
    ensures r.Success? ==>
              forall y :: y in r.value <==> exists i :: 0 <= i < |xs| && f(xs[i]) == Success(Some(y))
    ensures r.Failure? ==>
              exists i :: 0 <= i < |xs| && f(xs[i]) == Failure(r.error) &&
                          forall j :: 0 <= j < i ==> f(xs[j]).Success?
    decreases |xs|
  {
    if |xs| == 0 then Success([])
    else
      var n := |xs| - 1;
      var init := xs[..n];
      var before := TryCollect(init, f);
      assert forall i :: 0 <= i < n ==> init[i] == xs[i];
      match before
      case Failure(e) => Failure(e)
      case Success(ys) =>
        match f(xs[n])
        case Failure(e) => Failure(e)
        case Success(None) => Success(ys)
        case Success(Some(y)) => Success(ys + [y])
  }

  /** The outcome of examining an element with the exception taken as "nothing to keep". */
  function Kept<A, B, E>(f: A -> Result<Option<B>, E>): A -> Option<B>
  {
    (x: A) => if f(x).Success? then f(x).value else None
  }

  /** When no element raises, the loop that may raise is the plain filter loop: it keeps the
      same entries, each once, in the same order. */
  lemma {:induction false} TryCollectIsCollect<A, B(!new), E>(xs: seq<A>, f: A -> Result<Option<B>, E>)
    requires forall i :: 0 <= i < |xs| ==> f(xs[i]).Success?
    ensures TryCollect(xs, f) == Success(Collect(xs, Kept(f)))
    decreases |xs|
  {
    if |xs| > 0 {
      var n := |xs| - 1;
      var init := xs[..n];
      assert forall i :: 0 <= i < n ==> init[i] == xs[i];
      TryCollectIsCollect(init, f);
      assert Kept(f)(xs[n]) == f(xs[n]).value;
    }
  }

  /** Examining `a + b` is examining `a`, then `b`. */
  lemma {:induction false} TryCollectConcat<A, B(!new), E>(a: seq<A>, b: seq<A>, f: A -> Result<Option<B>, E>)
    ensures TryCollect(a + b, f) == AppendResults(TryCollect(a, f), TryCollect(b, f))
    decreases |b|
  {
    if |b| == 0 {
      assert a + b == a;
      assert TryCollect(b, f) == Success([]);
      if TryCollect(a, f).Success? {
        assert TryCollect(a, f).value + [] == TryCollect(a, f).value;
      }
    } else {
      var b' := b[..|b| - 1];
      assert (a + b)[..|a + b| - 1] == a + b';
      assert (a + b)[|a + b| - 1] == b[|b| - 1];
      TryCollectConcat(a, b', f);
      var last := b[|b| - 1];
      match TryCollect(a, f)
      case Failure(_) =>
      case Success(xs) =>
        match TryCollect(b', f)
        case Failure(_) =>
        case Success(ys) =>
          match f(last)
          case Failure(_) =>
          case Success(None) =>
          case Success(Some(y)) =>
            assert xs + ys + [y] == xs + (ys + [y]);
    }
  }

  /** `for x in xs: out.append(g(x))` where `g` may raise: all results, or the first failure. */
  function Traverse<A, B, E>(xs: seq<A>, f: A -> Result<B, E>): (r: Result<seq<B>, E>)
    ensures r.Success? <==> forall i :: 0 <= i < |xs| ==> f(xs[i]).Success?
    ensures r.Success? ==>
              |r.value| == |xs| && forall i :: 0 <= i < |xs| ==> f(xs[i]) == Success(r.value[i])
    ensures r.Failure? ==>
              exists i :: 0 <= i < |xs| && f(xs[i]) == Failure(r.error) &&
                          forall j :: 0 <= j < i ==> f(xs[j]).Success?
    decreases |xs|
  {
    if |xs| == 0 then Success([])
    else
      var n := |xs| - 1;
      var init := xs[..n];
      assert forall i :: 0 <= i < n ==> init[i] == xs[i];
      var before := Traverse(init, f);
      if before.Failure? then Failure(before.error)
      else
        match f(xs[n])
        case Failure(e) => Failure(e)
        case Success(y) =>
          var ys := before.value + [y];
          assert forall i :: 0 <= i < n ==> ys[i] == before.value[i];
          Success(ys)
  }

  /** Transforming `a + b` is transforming `a`, then `b`; the earlier failure wins. */
  lemma {:induction false} TraverseConcat<A, B, E>(a: seq<A>, b: seq<A>, f: A -> Result<B, E>)
    ensures Traverse(a + b, f) == AppendResults(Traverse(a, f), Traverse(b, f))
    decreases |b|
  {
    if |b| == 0 {
      assert a + b == a;
      if Traverse(a, f).Success? {
        assert Traverse(a, f).value + [] == Traverse(a, f).value;
      }
    } else {
      var b' := b[..|b| - 1];
      assert (a + b)[..|a + b| - 1] == a + b';
      assert (a + b)[|a + b| - 1] == b[|b| - 1];
      TraverseConcat(a, b', f);
      match Traverse(a, f)
      case Failure(_) =>
      case Success(xs) =>
        match Traverse(b', f)
        case Failure(_) =>
        case Success(ys) =>
          match f(b[|b| - 1])
          case Failure(_) =>
          case Success(y) =>
            assert xs + ys + [y] == xs + (ys + [y]);
    }
  }

  function FlatMap<A, B(==, !new)>(xs: seq<A>, f: A -> seq<B>): (r: seq<B>)
    ensures forall y :: y in r <==> exists i :: 0 <= i < |xs| && y in f(xs[i])
    decreases |xs|
  {
    if |xs| == 0 then []
    else
      var init := xs[..|xs| - 1];
      assert forall i :: 0 <= i < |init| ==> init[i] == xs[i];
      FlatMap(init, f) + f(xs[|xs| - 1])
  }

  /** The inner results appear in the order of the outer elements. */
  lemma {:induction false} FlatMapConcat<A, B(!new)>(a: seq<A>, b: seq<A>, f: A -> seq<B>)
    ensures FlatMap(a + b, f) == FlatMap(a, f) + FlatMap(b, f)
    decreases |b|
  {
    if |b| == 0 {
      assert a + b == a;
    } else {
      var b' := b[..|b| - 1];
      assert (a + b)[..|a + b| - 1] == a + b';
      assert (a + b)[|a + b| - 1] == b[|b| - 1];
      FlatMapConcat(a, b', f);
    }
  }
}

=== FILE: snapshots.dfy ===
/** `get_snapshots_to_delete`: the ids of the account's snapshots whose source volume is
    missing, unknown to the provider, or attached to nothing. The snapshot listing is the
    input sequence; the per-snapshot `describe_volumes(VolumeIds=[id])` call is the
    `describe` parameter. */
module Snapshots {
  import opened Outcomes
  import opened Sequences

  datatype Snapshot = Snapshot(snapshotId: string, volumeId: Option<string>)

  datatype Attachment = Attachment(instanceId: string)

  datatype VolumeDescription = VolumeDescription(volumeId: string, attachments: seq<Attachment>)

  /** What `describe_volumes` does for one volume id: answers with a volume list, raises the
      provider's ClientError with an error code, or raises some other exception. */
  datatype DescribeVolumes =
    | Described(volumes: seq<VolumeDescription>)
    | ClientError(code: string)
    | OtherException(name: string)

  /** The exceptions that escape the detector. */
  datatype SnapshotFault =
    | EmptyVolumeList(volumeId: string)                 // IndexError on `['Volumes'][0]`
    | LookupRaised(volumeId: string, exception: string)  // not a ClientError, so not caught

  const VolumeNotFound: string := "InvalidVolume.NotFound"

  /** `not snapshot.get('VolumeId')`: the id is absent or empty. */
  predicate HasNoVolume(s: Snapshot)
  {
    s.volumeId.None? || s.volumeId.value == ""
  }

  /** The snapshot is one to delete: it has no volume, or the lookup of its volume fails with
      code `InvalidVolume.NotFound`, or the first volume returned has no attachments. */
  predicate Orphaned(s: Snapshot, describe: string -> DescribeVolumes)
  {
    || HasNoVolume(s)
    || describe(s.volumeId.value) == ClientError(VolumeNotFound)
    || (describe(s.volumeId.value).Described? &&
        |describe(s.volumeId.value).volumes| > 0 &&
        |describe(s.volumeId.value).volumes[0].attachments| == 0)
  }

  /** Examining the snapshot raises out of the detector: the lookup of its volume returns an
      empty volume list or raises something other than a ClientError. A ClientError with any
      other code is caught and the snapshot is simply not listed. */
  predicate Aborts(s: Snapshot, describe: string -> DescribeVolumes)
  {
    && !HasNoVolume(s)
    && (|| describe(s.volumeId.value).OtherException?
        || (describe(s.volumeId.value).Described? && |describe(s.volumeId.value).volumes| == 0))
  }

  /** One iteration of the loop over snapshots. */
  function Examine(s: Snapshot, describe: string -> DescribeVolumes): Result<Option<string>, SnapshotFault>
  {
    if HasNoVolume(s) then Success(Some(s.snapshotId))
    else
      var id := s.volumeId.value;
      match describe(id)
      case Described(volumes) =>
        if |volumes| == 0 then Failure(EmptyVolumeList(id))
        else if |volumes[0].attachments| == 0 then Success(Some(s.snapshotId))
        else Success(None)
      case ClientError(code) =>
        if code == VolumeNotFound then Success(Some(s.snapshotId)) else Success(None)
      case OtherException(name) => Failure(LookupRaised(id, name))
  }

  lemma ExamineMeaning(s: Snapshot, describe: string -> DescribeVolumes)
    ensures Examine(s, describe).Failure? <==> Aborts(s, describe)
    ensures Examine(s, describe) == Success(Some(s.snapshotId)) <==> Orphaned(s, describe)
    ensures Examine(s, describe).Success? ==>
              Examine(s, describe).value.None? || Examine(s, describe).value == Some(s.snapshotId)
    ensures Examine(s, describe).Failure? ==> Examine(s, describe).error.volumeId == s.volumeId.value
    ensures Examine(s, describe).Failure? ==>
              (Examine(s, describe).error.EmptyVolumeList? <==> describe(s.volumeId.value).Described?)
    ensures !HasNoVolume(s) && describe(s.volumeId.value).OtherException? ==>
              Examine(s, describe) ==
                Failure(LookupRaised(s.volumeId.value, describe(s.volumeId.value).name))
    ensures !HasNoVolume(s) && describe(s.volumeId.value) == Described([]) ==>
              Examine(s, describe) == Failure(EmptyVolumeList(s.volumeId.value))
  {
  }

  /** The loop body as a function of the snapshot. */
  function ExamineWith(describe: string -> DescribeVolumes): Snapshot -> Result<Option<string>, SnapshotFault>
  {
    (s: Snapshot) => Examine(s, describe)
  }

  function SnapshotsToDelete(snapshots: seq<Snapshot>, describe: string -> DescribeVolumes)
    : (r: Result<seq<string>, SnapshotFault>)
    ensures r.Success? <==> forall i :: 0 <= i < |snapshots| ==> !Aborts(snapshots[i], describe)
    ensures r.Success? ==>
              forall id :: id in r.value <==>
                exists i :: 0 <= i < |snapshots| && snapshots[i].snapshotId == id &&
                            Orphaned(snapshots[i], describe)
    ensures r.Failure? ==>
              exists i :: 0 <= i < |snapshots| && Aborts(snapshots[i], describe) &&
                          Examine(snapshots[i], describe) == Failure(r.error) &&
                          forall j :: 0 <= j < i ==> !Aborts(snapshots[j], describe)
  {
    var f := ExamineWith(describe);
    var r := TryCollect(snapshots, f);
    assert forall i :: 0 <= i < |snapshots| ==> f(snapshots[i]) == Examine(snapshots[i], describe);
    forall i | 0 <= i < |snapshots| {
      ExamineMeaning(snapshots[i], describe);
    }
    r
  }

  /** The ids come out in snapshot order, and the first snapshot whose examination raises
      decides the failure. */
  lemma SnapshotsToDeleteConcat(a: seq<Snapshot>, b: seq<Snapshot>, describe: string -> DescribeVolumes)
    ensures SnapshotsToDelete(a + b, describe) ==
            AppendResults(SnapshotsToDelete(a, describe), SnapshotsToDelete(b, describe))
  {
    TryCollectConcat(a, b, ExamineWith(describe));
  }

  /** Each orphaned snapshot contributes its id exactly once: the list is as long as the number
      of orphaned snapshots. */
  lemma SnapshotsToDeleteCount(snapshots: seq<Snapshot>, describe: string -> DescribeVolumes)
    requires SnapshotsToDelete(snapshots, describe).Success?
    ensures |SnapshotsToDelete(snapshots, describe).value| ==
            |set i | 0 <= i < |snapshots| && Orphaned(snapshots[i], describe)|
  {
    var f := ExamineWith(describe);
    forall i | 0 <= i < |snapshots| ensures f(snapshots[i]).Success? {
      ExamineMeaning(snapshots[i], describe);
    }
    TryCollectIsCollect(snapshots, f);
    CollectCount(snapshots, Kept(f));
    forall i | 0 <= i < |snapshots|
      ensures Kept(f)(snapshots[i]).Some? <==> Orphaned(snapshots[i], describe)
    {
      ExamineMeaning(snapshots[i], describe);
    }
    assert KeptIndices(snapshots, Kept(f)) == set i | 0 <= i < |snapshots| && Orphaned(snapshots[i], describe);
  }
}

=== FILE: text.dfy ===
/** The string operations the stop-reason parser uses: `in` on strings, `split(c)[-1]`,
    `strip(c)`, and fixed-width decimal fields. */
module Text {

  /** `sub` occurs in `s` starting at index `i`. */
  predicate OccursAt(s: string, sub: string, i: int)
  {
    0 <= i && i + |sub| <= |s| && s[i..i + |sub|] == sub
  }

  /** Python's `sub in s`. */
  function Contains(s: string, sub: string): (b: bool)
    ensures b <==> exists i :: OccursAt(s, sub, i)
  {
    ContainsFrom(s, sub, 0)
  }

  /** `sub` occurs in `s` at `start` or later. */
  function ContainsFrom(s: string, sub: string, start: nat): (b: bool)
    ensures b <==> exists i :: start <= i && OccursAt(s, sub, i)
    decreases |s| - start
  {
    if start + |sub| > |s| then false
    else if s[start..start + |sub|] == sub then
      assert OccursAt(s, sub, start);
      true
    else ContainsFrom(s, sub, start + 1)
  }

  /** Python's `s.split(c)[-1]`: the text after the last `c`, or all of `s` when it has none. */
  function AfterLast(s: string, c: char): (r: string)
    ensures |r| <= |s| && r == s[|s| - |r|..]
    ensures c !in r
    ensures |r| < |s| ==> s[|s| - |r| - 1] == c
    decreases |s|
  {
    if |s| == 0 then []
    else if s[|s| - 1] == c then []
    else
      var init := s[..|s| - 1];
      var tail := AfterLast(init, c);
      assert init[|init| - |tail|..] + [s[|s| - 1]] == s[|s| - |tail| - 1..];
      assert |tail| < |init| ==> s[|s| - |tail| - 2] == init[|init| - |tail| - 1];
      tail + [s[|s| - 1]]
  }

  /** Python's `s.lstrip(c)`. */
  function StripLeft(s: string, c: char): (r: string)
    ensures |r| <= |s| && r == s[|s| - |r|..]
    ensures forall k :: 0 <= k < |s| - |r| ==> s[k] == c
    ensures |r| == 0 || r[0] != c
    decreases |s|
  {
    if |s| > 0 && s[0] == c then StripLeft(s[1..], c) else s
  }

  /** Python's `s.rstrip(c)`. */
  function StripRight(s: string, c: char): (r: string)
    ensures |r| <= |s| && r == s[..|r|]
    ensures forall k :: |r| <= k < |s| ==> s[k] == c
    ensures |r| == 0 || r[|r| - 1] != c
    decreases |s|
  {
    if |s| > 0 && s[|s| - 1] == c then StripRight(s[..|s| - 1], c) else s
  }

  /** Python's `s.strip(c)`. */
  function Strip(s: string, c: char): string
  {
    StripRight(StripLeft(s, c), c)
  }

  /** `split(c)[-1]` returns exactly what follows the last `c`. */
  lemma AfterLastOf(p: string, q: string, c: char)
    requires c !in q
    ensures AfterLast(p + [c] + q, c) == q
  {
    var s := p + [c] + q;
    var r := AfterLast(s, c);
    SeparatorInLongerSuffix(p, q, c, |r|);
    NoSeparatorBeforeShorterSuffix(p, q, c, |r|);
    assert |r| == |q|;
    assert r == s[|s| - |q|..] == q;
  }

  lemma SeparatorInLongerSuffix(p: string, q: string, c: char, len: int)
    ensures var s := p + [c] + q; |q| < len <= |s| ==> c in s[|s| - len..]
  {
    var s := p + [c] + q;
    if |q| < len <= |s| {
      assert s[|s| - len..][|p| - (|s| - len)] == s[|p|] == c;
    }
  }

  lemma NoSeparatorBeforeShorterSuffix(p: string, q: string, c: char, len: int)
    requires c !in q
    ensures var s := p + [c] + q; 0 <= len < |q| ==> s[|s| - len - 1] != c
  {
    var s := p + [c] + q;
    if 0 <= len < |q| {
      assert s[|s| - len - 1] == q[|q| - len - 1];
    }
  }

  /** Stripping `)` from `x)` gives back `x` when `x` starts and ends with something else. */
  lemma StripTrailing(x: string, c: char)
    requires |x| > 0 && x[0] != c && x[|x| - 1] != c
    ensures Strip(x + [c], c) == x
  {
    var s := x + [c];
    var l := StripLeft(s, c);
    assert l == s;
    var r := StripRight(s, c);
    assert s[|x| - 1] == x[|x| - 1];
    assert s[|s| - 1] == c;
    assert |r| == |x|;
    assert r == s[..|x|] == x;
  }

  // Fixed-width decimal fields.

  predicate IsDigit(ch: char)
  {
    '0' <= ch <= '9'
  }

  predicate AllDigits(s: string)
  {
    forall k :: 0 <= k < |s| ==> IsDigit(s[k])
  }

  function DigitChar(k: int): (ch: char)
    requires 0 <= k < 10
    ensures IsDigit(ch)
  {
    ('0' as int + k) as char
  }

  function Pow10(n: nat): nat
  {
    if n == 0 then 1 else 10 * Pow10(n - 1)
  }

  /** The value of a string of decimal digits. */
  function DigitsValue(s: string): nat
    requires AllDigits(s)
    decreases |s|
  {
    if |s| == 0 then 0
    else DigitsValue(s[..|s| - 1]) * 10 + (s[|s| - 1] as int - '0' as int)
  }

  /** The last `width` decimal digits of `n`, zero-padded on the left. */
  function Digits(n: nat, width: nat): (r: string)
    ensures |r| == width
    ensures AllDigits(r)
    decreases width
  {
    if width == 0 then "" else Digits(n / 10, width - 1) + [DigitChar(n % 10)]
  }

  /** A field written with `Digits` reads back as the number, when it fits the width. */
  lemma {:induction false} DigitsRoundTrip(n: nat, width: nat)
    requires n < Pow10(width)
    ensures DigitsValue(Digits(n, width)) == n
    decreases width
  {
    if width > 0 {
      var d := Digits(n, width);
      assert d[..|d| - 1] == Digits(n / 10, width - 1);
      DigitsRoundTrip(n / 10, width - 1);
    }
  }

  /** A field of digits is exactly what `Digits` writes for its value. */
  lemma {:induction false} DigitsOfValue(s: string)
    requires AllDigits(s)
    ensures DigitsValue(s) < Pow10(|s|)
    ensures Digits(DigitsValue(s), |s|) == s
    decreases |s|
  {
    if |s| > 0 {
      var init := s[..|s| - 1];
      DigitsOfValue(init);
      var v := DigitsValue(s);
      var last := s[|s| - 1] as int - '0' as int;
      assert v / 10 == DigitsValue(init) && v % 10 == last;
      assert Digits(v, |s|) == Digits(DigitsValue(init), |init|) + [DigitChar(last)];
      assert s == init + [s[|s| - 1]];
    }
  }
}

=== FILE: timetext.dfy ===
/** Text forms of date-times: `strftime('%Y-%m-%d %H:%M:%S')`, `isoformat()` of a UTC-aware
    datetime, and the `strptime(..., "%Y-%m-%d %H:%M:%S GMT")` parse of a stop reason. */
module TimeText {
  import opened Outcomes
  import opened DateTimes
  import opened Text

  function DatePart(d: DateTime): string
  {
    Digits(d.year, 4) + "-" + Digits(d.month, 2) + "-" + Digits(d.day, 2)
  }

  function ClockPart(d: DateTime): string
  {
    Digits(d.hour, 2) + ":" + Digits(d.minute, 2) + ":" + Digits(d.second, 2)
  }

  /** `d.strftime('%Y-%m-%d %H:%M:%S')`. */
  function StrftimeText(d: DateTime): string
  {
    DatePart(d) + " " + ClockPart(d)
  }

  /** The text a stop reason carries between its parentheses. */
  function GmtText(d: DateTime): string
  {
    StrftimeText(d) + " GMT"
  }

  /** `d.isoformat()` for a datetime whose offset is UTC. */
  function IsoText(d: DateTime): string
  {
    var fraction := if d.microsecond != 0 then "." + Digits(d.microsecond, 6) else "";
    DatePart(d) + "T" + ClockPart(d) + fraction + "+00:00"
  }

  /** The shape `DDDD-DD-DD DD:DD:DD GMT`, every D a decimal digit. */
  predicate GmtShape(s: string)
  {
    && |s| == 23
    && AllDigits(s[..4]) && s[4] == '-' && AllDigits(s[5..7]) && s[7] == '-'
    && AllDigits(s[8..10]) && s[10] == ' ' && AllDigits(s[11..13]) && s[13] == ':'
    && AllDigits(s[14..16]) && s[16] == ':' && AllDigits(s[17..19]) && s[19..] == " GMT"
  }

  /** `datetime.strptime(s, "%Y-%m-%d %H:%M:%S GMT")`, with the fields read at fixed widths;
      None stands for the ValueError raised for a text of another shape or an out-of-range
      field (month 13, February 30, hour 24, ...). */
  function ParseGmt(s: string): Option<DateTime>
  {
    if GmtShape(s) then
      var f := Fields(DigitsValue(s[..4]), DigitsValue(s[5..7]), DigitsValue(s[8..10]),
                      DigitsValue(s[11..13]), DigitsValue(s[14..16]), DigitsValue(s[17..19]), 0);
      if ValidFields(f) then Some(f) else None
    else None
  }

  lemma SmallPowers()
    ensures Pow10(2) == 100 && Pow10(4) == 10000
  {
    assert Pow10(1) == 10;
    assert Pow10(3) == 1000;
  }

  /** Three fixed-width fields joined by one-character separators cut back into the fields. */
  lemma ThreeFields(a: string, sep1: string, b: string, sep2: string, c: string)
    requires |sep1| == 1 && |sep2| == 1
    ensures var s := a + sep1 + b + sep2 + c;
            && |s| == |a| + |b| + |c| + 2
            && s[..|a|] == a && s[|a|] == sep1[0] && s[|a| + 1..|a| + 1 + |b|] == b
            && s[|a| + 1 + |b|] == sep2[0] && s[|a| + 2 + |b|..] == c
  {
    var s := a + sep1 + b + sep2 + c;
    assert s == a + (sep1 + b + sep2 + c);
    assert s[|a|..] == sep1 + b + sep2 + c;
    assert s[|a| + 1..] == b + sep2 + c;
    assert s[|a| + 1 + |b|..] == sep2 + c;
  }

  /** The GMT text of a date-time cuts into its fixed-width fields. */
  lemma GmtTextFields(d: DateTime)
    ensures var s := GmtText(d);
            && |s| == 23
            && s[..4] == Digits(d.year, 4) && s[4] == '-' && s[5..7] == Digits(d.month, 2)
            && s[7] == '-' && s[8..10] == Digits(d.day, 2) && s[10] == ' '
            && s[11..13] == Digits(d.hour, 2) && s[13] == ':' && s[14..16] == Digits(d.minute, 2)
            && s[16] == ':' && s[17..19] == Digits(d.second, 2) && s[19..] == " GMT"
  {
    var date := DatePart(d);
    var clock := ClockPart(d);
    var s := GmtText(d);
    ThreeFields(Digits(d.year, 4), "-", Digits(d.month, 2), "-", Digits(d.day, 2));
    ThreeFields(Digits(d.hour, 2), ":", Digits(d.minute, 2), ":", Digits(d.second, 2));
    ThreeFields(date, " ", clock, " ", "GMT");
    assert s == date + " " + clock + " " + "GMT";
    assert s[..10] == date && s[11..19] == clock;
    assert s[..4] == date[..4] && s[5..7] == date[5..7] && s[8..10] == date[8..];
    assert s[11..13] == clock[..2] && s[14..16] == clock[3..5] && s[17..19] == clock[6..];
  }

  lemma ParseOfGmtText(d: DateTime)
    requires d.microsecond == 0
    ensures ParseGmt(GmtText(d)) == Some(d)
  {
    var s := GmtText(d);
    SmallPowers();
    GmtTextFields(d);
    DigitsRoundTrip(d.year, 4);
    DigitsRoundTrip(d.month, 2);
    DigitsRoundTrip(d.day, 2);
    DigitsRoundTrip(d.hour, 2);
    DigitsRoundTrip(d.minute, 2);
    DigitsRoundTrip(d.second, 2);
    assert GmtShape(s);
  }

  /** Two texts of the GMT shape that agree field by field are equal. */
  lemma SameFieldsSameText(s: string, t: string)
    requires |s| == 23 && |t| == 23
    requires s[..4] == t[..4] && s[5..7] == t[5..7] && s[8..10] == t[8..10]
    requires s[11..13] == t[11..13] && s[14..16] == t[14..16] && s[17..19] == t[17..19]
    requires s[4] == t[4] && s[7] == t[7] && s[10] == t[10] && s[13] == t[13] && s[16] == t[16]
    requires s[19..] == t[19..]
    ensures s == t
  {
    forall k | 0 <= k < 23
      ensures s[k] == t[k]
    {
      if k < 4 {
        assert s[..4][k] == t[..4][k];
      } else if 5 <= k < 7 {
        assert s[5..7][k - 5] == t[5..7][k - 5];
      } else if 8 <= k < 10 {
        assert s[8..10][k - 8] == t[8..10][k - 8];
      } else if 11 <= k < 13 {
        assert s[11..13][k - 11] == t[11..13][k - 11];
      } else if 14 <= k < 16 {
        assert s[14..16][k - 14] == t[14..16][k - 14];
      } else if 17 <= k < 19 {
        assert s[17..19][k - 17] == t[17..19][k - 17];
      } else if 19 <= k {
        assert s[19..][k - 19] == t[19..][k - 19];
      }
    }
  }

  lemma ParsedIsGmtText(s: string)
    requires ParseGmt(s).Some?
    ensures ParseGmt(s).value.microsecond == 0 && s == GmtText(ParseGmt(s).value)
  {
    var d := ParseGmt(s).value;
    DigitsOfValue(s[..4]);
    DigitsOfValue(s[5..7]);
    DigitsOfValue(s[8..10]);
    DigitsOfValue(s[11..13]);
    DigitsOfValue(s[14..16]);
    DigitsOfValue(s[17..19]);
    GmtTextFields(d);
    SameFieldsSameText(s, GmtText(d));
  }

  /** The parser accepts exactly the GMT texts of whole-second date-times, and returns the
      date-time the text was written from: parsing and formatting are inverse. */
  lemma ParseGmtExact(s: string, d: DateTime)
    ensures ParseGmt(s) == Some(d) <==> d.microsecond == 0 && s == GmtText(d)
  {
    if d.microsecond == 0 && s == GmtText(d) {
      ParseOfGmtText(d);
    }
    if ParseGmt(s) == Some(d) {
      ParsedIsGmtText(s);
    }
  }

  /** The ISO text of a whole-second date-time is its GMT text with a `T` between date and
      time and the `+00:00` offset in place of ` GMT`. */
  lemma IsoTextOfWholeSecond(d: DateTime)
    requires d.microsecond == 0
    ensures IsoText(d) == GmtText(d)[..10] + "T" + GmtText(d)[11..19] + "+00:00"
    ensures |IsoText(d)| == 25
  {
    GmtTextFields(d);
    assert GmtText(d)[..10] == DatePart(d);
    assert GmtText(d)[11..19] == ClockPart(d);
  }
}

=== FILE: volumes.dfy ===
/** `get_old_unused_volumes`: the `available` (unattached) volumes whose most recent
    CloudTrail event is missing or older than the threshold, with that event's time formatted
    by a final pass. The volume listing is the input sequence; the per-volume
    `lookup_events` call is the `lookupEvents` parameter. */
module Volumes {
  import opened Outcomes
  import opened Sequences
  import opened DateTimes
  import opened TimeText

  datatype Volume = Volume(volumeId: string, state: string)

  /** A CloudTrail event that names the volume. The code looks at no other attribute than the
      time: any event counts, not only AttachVolume and DetachVolume. */
  datatype Event = Event(eventName: string, eventTime: DateTime)

  /** An entry of the flagged list before the formatting pass: None when no event was found. */
  datatype Candidate = Candidate(volumeId: string, lastUsedTime: Option<DateTime>)

  datatype VolumeEntry = VolumeEntry(volumeId: string, lastUsedTime: string)

  /** The AttributeError the formatting pass raises on `None.strftime`. */
  datatype VolumeFault = LastUsedTimeIsNone(volumeId: string)

  const Available: string := "available"

  /** `max(events, key=lambda x: x['EventTime'])['EventTime']`. */
  function LatestEventTime(events: seq<Event>): (t: DateTime)
    requires |events| > 0
    ensures exists i :: 0 <= i < |events| && events[i].eventTime == t
    ensures forall i :: 0 <= i < |events| ==> !Before(t, events[i].eventTime)
    decreases |events|
  {
    var last := events[|events| - 1].eventTime;
    if |events| == 1 then
      BeforeIsStrictTotalOrder(last, last, last);
      last
    else
      var init := events[..|events| - 1];
      var best := LatestEventTime(init);
      assert forall i :: 0 <= i < |init| ==> init[i] == events[i];
      forall i | 0 <= i < |init| {
        BeforeIsStrictTotalOrder(last, best, init[i].eventTime);
      }
      BeforeIsStrictTotalOrder(best, last, best);
      if Before(best, last) then last else best
  }

  /** The last-used time the loop computes for a volume. */
  function LastUsed(events: seq<Event>): Option<DateTime>
  {
    if |events| == 0 then None else Some(LatestEventTime(events))
  }

  /** One iteration of the selection loop. */
  function Select(v: Volume, lookupEvents: string -> seq<Event>, threshold: DateTime): Option<Candidate>
  {
    if v.state == Available then
      var lastUsed := LastUsed(lookupEvents(v.volumeId));
      if lastUsed.None? || Before(lastUsed.value, threshold) then Some(Candidate(v.volumeId, lastUsed))
      else None
    else None
  }

  /** The list `old_unused_volumes` before the formatting pass. */
  function OldUnusedCandidates(volumes: seq<Volume>, lookupEvents: string -> seq<Event>, threshold: DateTime)
    : (r: seq<Candidate>)
    ensures forall c :: c in r <==>
              exists i :: 0 <= i < |volumes| && volumes[i].state == Available &&
                          c.volumeId == volumes[i].volumeId &&
                          (var events := lookupEvents(volumes[i].volumeId);
                           if |events| == 0 then c.lastUsedTime == None
                           else c.lastUsedTime == Some(LatestEventTime(events)) &&
                                Before(LatestEventTime(events), threshold))
  {
    var f := v => Select(v, lookupEvents, threshold);
    assert forall i :: 0 <= i < |volumes| ==> f(volumes[i]) == Select(volumes[i], lookupEvents, threshold);
    Collect(volumes, f)
  }

  /** `volume['LastUsedTime'].strftime('%Y-%m-%d %H:%M:%S')` for one flagged entry. */
  function FormatEntry(c: Candidate): Result<VolumeEntry, VolumeFault>
  {
    match c.lastUsedTime
    case None => Failure(LastUsedTimeIsNone(c.volumeId))
    case Some(t) => Success(VolumeEntry(c.volumeId, StrftimeText(t)))
  }

  /** The formatting pass over the flagged list: it raises at the first entry without a time. */
  function FormatLastUsed(candidates: seq<Candidate>): (r: Result<seq<VolumeEntry>, VolumeFault>)
    ensures r.Success? <==> forall i :: 0 <= i < |candidates| ==> candidates[i].lastUsedTime.Some?
    ensures r.Success? ==>
              && |r.value| == |candidates|
              && forall i :: 0 <= i < |candidates| ==>
                   r.value[i] == VolumeEntry(candidates[i].volumeId,
                                             StrftimeText(candidates[i].lastUsedTime.value))
    ensures r.Failure? ==>
              exists i :: 0 <= i < |candidates| && candidates[i].lastUsedTime.None? &&
                          r.error == LastUsedTimeIsNone(candidates[i].volumeId) &&
                          forall j :: 0 <= j < i ==> candidates[j].lastUsedTime.Some?
  {
    Traverse(candidates, FormatEntry)
  }

  /** The flagged list has an entry without a time exactly when some available volume has no
      events. */
  lemma CandidatesWithoutTime(volumes: seq<Volume>, lookupEvents: string -> seq<Event>, threshold: DateTime)
    ensures var candidates := OldUnusedCandidates(volumes, lookupEvents, threshold);
            (exists k :: 0 <= k < |candidates| && candidates[k].lastUsedTime.None?) <==>
            (exists i :: 0 <= i < |volumes| && volumes[i].state == Available &&
                         |lookupEvents(volumes[i].volumeId)| == 0)
  {
    var candidates := OldUnusedCandidates(volumes, lookupEvents, threshold);
    forall i | 0 <= i < |volumes| && volumes[i].state == Available &&
               |lookupEvents(volumes[i].volumeId)| == 0
      ensures Candidate(volumes[i].volumeId, None) in candidates
    {
    }
    forall k | 0 <= k < |candidates| && candidates[k].lastUsedTime.None?
      ensures exists i :: 0 <= i < |volumes| && volumes[i].state == Available &&
                          |lookupEvents(volumes[i].volumeId)| == 0
    {
      assert candidates[k] in candidates;
    }
  }

  /** `e` is the formatted form of some flagged entry that has a time. */
  ghost predicate FormattedCandidate(candidates: seq<Candidate>, e: VolumeEntry)
  {
    exists c :: c in candidates && c.lastUsedTime.Some? &&
                e == VolumeEntry(c.volumeId, StrftimeText(c.lastUsedTime.value))
  }

  /** A formatted entry is a flagged entry with its time written out, and every flagged entry
      is formatted. */
  lemma FormattedEntries(candidates: seq<Candidate>, e: VolumeEntry)
    requires FormatLastUsed(candidates).Success?
    ensures e in FormatLastUsed(candidates).value <==> FormattedCandidate(candidates, e)
  {
    var entries := FormatLastUsed(candidates).value;
    if e in entries {
      var k :| 0 <= k < |entries| && entries[k] == e;
      var c := candidates[k];
      assert c in candidates && c.lastUsedTime.Some?;
      assert e == VolumeEntry(c.volumeId, StrftimeText(c.lastUsedTime.value));
    }
    if FormattedCandidate(candidates, e) {
      var c :| c in candidates && c.lastUsedTime.Some? &&
               e == VolumeEntry(c.volumeId, StrftimeText(c.lastUsedTime.value));
      var k :| 0 <= k < |candidates| && candidates[k] == c;
      assert entries[k] == e;
    }
  }

  /** An entry of the detector's result is a formatted flagged volume. */
  ghost predicate FlaggedEntry(volumes: seq<Volume>, lookupEvents: string -> seq<Event>, threshold: DateTime,
                               e: VolumeEntry)
  {
    exists i :: 0 <= i < |volumes| && volumes[i].state == Available &&
                (var events := lookupEvents(volumes[i].volumeId);
                 && |events| > 0
                 && Before(LatestEventTime(events), threshold)
                 && e == VolumeEntry(volumes[i].volumeId, StrftimeText(LatestEventTime(events))))
  }

  lemma FlaggedEntryIsFormattedCandidate(volumes: seq<Volume>, lookupEvents: string -> seq<Event>,
                                         threshold: DateTime, e: VolumeEntry)
    ensures FlaggedEntry(volumes, lookupEvents, threshold, e) <==>
            FormattedCandidate(OldUnusedCandidates(volumes, lookupEvents, threshold), e)
  {
    var candidates := OldUnusedCandidates(volumes, lookupEvents, threshold);
    if FlaggedEntry(volumes, lookupEvents, threshold, e) {
      var i :| 0 <= i < |volumes| && volumes[i].state == Available &&
               (var events := lookupEvents(volumes[i].volumeId);
                && |events| > 0
                && Before(LatestEventTime(events), threshold)
                && e == VolumeEntry(volumes[i].volumeId, StrftimeText(LatestEventTime(events))));
      var c := Candidate(volumes[i].volumeId, Some(LatestEventTime(lookupEvents(volumes[i].volumeId))));
      assert c in candidates;
    }
  }

  /** When formatting succeeds, the formatted entries are exactly the flagged ones. */
  lemma FlaggedEntries(volumes: seq<Volume>, lookupEvents: string -> seq<Event>, threshold: DateTime)
    requires FormatLastUsed(OldUnusedCandidates(volumes, lookupEvents, threshold)).Success?
    ensures forall e :: e in FormatLastUsed(OldUnusedCandidates(volumes, lookupEvents, threshold)).value <==>
                        FlaggedEntry(volumes, lookupEvents, threshold, e)
  {
    var candidates := OldUnusedCandidates(volumes, lookupEvents, threshold);
    forall e | true
      ensures e in FormatLastUsed(candidates).value <==> FlaggedEntry(volumes, lookupEvents, threshold, e)
    {
      FormattedEntries(candidates, e);
      FlaggedEntryIsFormattedCandidate(volumes, lookupEvents, threshold, e);
    }
  }

  /** When formatting fails, the entry it stops at is an available volume without events. */
  lemma FormatFailure(volumes: seq<Volume>, lookupEvents: string -> seq<Event>, threshold: DateTime)
    requires FormatLastUsed(OldUnusedCandidates(volumes, lookupEvents, threshold)).Failure?
    ensures exists i :: 0 <= i < |volumes| && volumes[i].state == Available &&
                        |lookupEvents(volumes[i].volumeId)| == 0 &&
                        FormatLastUsed(OldUnusedCandidates(volumes, lookupEvents, threshold)).error ==
                          LastUsedTimeIsNone(volumes[i].volumeId)
  {
    var candidates := OldUnusedCandidates(volumes, lookupEvents, threshold);
    var k :| 0 <= k < |candidates| && candidates[k].lastUsedTime.None? &&
             FormatLastUsed(candidates).error == LastUsedTimeIsNone(candidates[k].volumeId);
    assert candidates[k] in candidates;
  }

  function OldUnusedVolumes(volumes: seq<Volume>, lookupEvents: string -> seq<Event>, threshold: DateTime)
    : (r: Result<seq<VolumeEntry>, VolumeFault>)
    ensures r.Success? <==>
              forall i :: 0 <= i < |volumes| && volumes[i].state == Available ==>
                |lookupEvents(volumes[i].volumeId)| > 0
    ensures r.Success? ==>
              forall e :: e in r.value <==> FlaggedEntry(volumes, lookupEvents, threshold, e)
    ensures r.Failure? ==>
              exists i :: 0 <= i < |volumes| && volumes[i].state == Available &&
                          |lookupEvents(volumes[i].volumeId)| == 0 &&
                          r.error == LastUsedTimeIsNone(volumes[i].volumeId)
  {
    var candidates := OldUnusedCandidates(volumes, lookupEvents, threshold);
    CandidatesWithoutTime(volumes, lookupEvents, threshold);
    var r := FormatLastUsed(candidates);
    if r.Success? then
      FlaggedEntries(volumes, lookupEvents, threshold);
      r
    else
      FormatFailure(volumes, lookupEvents, threshold);
      r
  }

  /** Entries come out in volume order; the first available volume without events decides
      the failure. */
  lemma OldUnusedVolumesConcat(a: seq<Volume>, b: seq<Volume>, lookupEvents: string -> seq<Event>,
                               threshold: DateTime)
    ensures OldUnusedVolumes(a + b, lookupEvents, threshold) ==
            AppendResults(OldUnusedVolumes(a, lookupEvents, threshold),
                          OldUnusedVolumes(b, lookupEvents, threshold))
  {
    CollectConcat(a, b, v => Select(v, lookupEvents, threshold));
    TraverseConcat(OldUnusedCandidates(a, lookupEvents, threshold),
                   OldUnusedCandidates(b, lookupEvents, threshold), FormatEntry);
  }
}
